=== FILE: README.md ===
# MACDNotification core in Dafny

MACDNotification is an Android app. It keeps groups of stock symbols. It fetches their price
history from the Yahoo YQL service and computes technical indicators: MACD 12/26, the
"Rule #1" MACD 8/17/9 histogram, the 14/5 slow stochastic and the 10-day SMA. It flags
buy and sell signals and values above or below a Rule #1 valuation. This project models
the computational core of the app as pure Dafny functions and loop-level methods, and
proves properties about them:

- `Indicators` and `Analysis` model CalculateTechnicalAnalysis.java. They cover the list
  arithmetic (calcSMA, calcEMA, diff, calcHighest, calcLowest, calcPercentile), the size-gated
  calculateMACD branch and validateData.
- `Query` models the two buildURI methods: the date format, the YQL query text and its
  character escaping, and the fixed URL prefix and suffix.
- `Symbols` models Symbol.java: the Rule #1 predicates, the valuation checks, the wrapping
  retry counter, and the XML attribute write and read.
- `Groups` models Group.java: lookup by name and by position, append, remove, and the
  XML constructor and putAttributes pair.
- `Xml` is the small part of XMLElement that Symbol and Group use.
- `Fetcher` models StockDataFetcher.java:
  - the SAX handler of parseData, as a fold over parser events;
  - validateData and preCalculateIndicators;
  - the loop one worker thread of execute runs.
- `Prefs` and `Registry` model the group list of DataController.java (getGroup, addGroup,
  addSymbol, getAllSymbols). They also cover the legacy loader: the line parser of
  loadFromFile_1 and load_1 over the SharedPreferences map.
- `Text` and `Util` hold the shared helpers:
  - decimal rendering, Integer.parseInt and Java's String.split;
  - ASCII lower-casing and String.replace;
  - Option and sequence reversal.

Java floats are modelled as `real`. Calls whose result the core cannot see become function
parameters:
- Float.valueOf and String.valueOf(float);
- buildURI's URISyntaxException, fetchData and the SAX parser;
- `new StockData()` and StockDataList.calculateIndicators.

A thrown exception is modelled as `None`, or as an `Outcome` case.

Where the source is inconsistent or does something other than it evidently means, the model
follows the code as written:
- Group.addSymbol(String) calls a one-argument Symbol constructor that does not exist. The
  model's `Groups.AddSymbol` takes the name and the valuation, as DataController.addSymbol
  and load_1 call it.
- CalculateTechnicalAnalysis calls setters (setValue, setMACD, ...), `asList` and
  `hasValidData`, none of which Symbol.java declares. The `Analysis.Snapshot` record holds
  exactly the values calculateMACD hands to those setters.
- preCalculateIndicators guards with `data.size() >= 0`, which always holds, so its
  "could not be found" branch is dead code.
- calcLowest seeds its running minimum with -1, so for prices it always yields -1 (see
  Findings).

## Model

| member | source | states |
|---|---|---|
| Indicators.SmaFullWindow | MACDNotification/src/com/sleepyduck/macdnotification/CalculateTechnicalAnalysis.java:75-82 | when the window fits, calcSMA is the plain mean of `days` values starting at `start` |
| Indicators.CalcSma | MACDNotification/src/com/sleepyduck/macdnotification/CalculateTechnicalAnalysis.java:75-82 | the accumulation loop computes the windowed mean, with the window shrunk to what is left after `start` |
| Indicators.SmaBetween | MACDNotification/src/com/sleepyduck/macdnotification/CalculateTechnicalAnalysis.java:75-82 | an SMA lies between any lower and upper bound of the values in its window |
| Indicators.SmaConstant | MACDNotification/src/com/sleepyduck/macdnotification/CalculateTechnicalAnalysis.java:75-82 | the SMA of a constant series is that constant |
| Indicators.Ema | MACDNotification/src/com/sleepyduck/macdnotification/CalculateTechnicalAnalysis.java:65-73 | calcEMA has 1 + max(0, n - days) values; the first is the SMA seed and each later one is one 2/(days+1) step from the previous one |
| Indicators.CalcEma | MACDNotification/src/com/sleepyduck/macdnotification/CalculateTechnicalAnalysis.java:65-73 | the Java loop produces exactly the EMA series above |
| Indicators.SmaPrefix | MACDNotification/src/com/sleepyduck/macdnotification/CalculateTechnicalAnalysis.java:67 | the EMA seed depends only on the first `days` values |
| Indicators.EmaConstant | MACDNotification/src/com/sleepyduck/macdnotification/CalculateTechnicalAnalysis.java:65-73 | the EMA of a constant series is constant |
| Indicators.Diff | MACDNotification/src/com/sleepyduck/macdnotification/CalculateTechnicalAnalysis.java:84-93 | diff is as long as the shorter list, and the i-th value from the end is LHS minus RHS at the i-th value from the end |
| Indicators.DiffLists | MACDNotification/src/com/sleepyduck/macdnotification/CalculateTechnicalAnalysis.java:84-93 | the zero-fill-then-set loops yield the aligned-tail difference |
| Indicators.HighestIsWindowMax | MACDNotification/src/com/sleepyduck/macdnotification/CalculateTechnicalAnalysis.java:95-105 | for non-negative prices, calcHighest value i is the maximum of window v[i..i+days] and is attained in it |
| Indicators.CalcHighest | MACDNotification/src/com/sleepyduck/macdnotification/CalculateTechnicalAnalysis.java:95-105 | the nested loops give the -1-seeded running maximum of each window, one per start i < n - days |
| Indicators.LowestIsMinusOne | MACDNotification/src/com/sleepyduck/macdnotification/CalculateTechnicalAnalysis.java:107-117 | as written, calcLowest gives -1 for every window of non-negative prices |
| Indicators.CalcLowest | MACDNotification/src/com/sleepyduck/macdnotification/CalculateTechnicalAnalysis.java:107-117 | the nested loops give the -1-seeded running minimum of each window |
| Indicators.TrueLowestIsWindowMin | MACDNotification/src/com/sleepyduck/macdnotification/CalculateTechnicalAnalysis.java:107-117 | with the seed corrected to the window's first value, value i is the minimum of the window and is attained in it |
| Indicators.Percentile | MACDNotification/src/com/sleepyduck/macdnotification/CalculateTechnicalAnalysis.java:119-129 | calcPercentile is as long as the shortest list, and each value is (close - low) / (high - low) * 100 over the aligned tails |
| Indicators.CalcPercentile | MACDNotification/src/com/sleepyduck/macdnotification/CalculateTechnicalAnalysis.java:119-129 | the offset loop computes the aligned-tail percentile |
| Indicators.GuardedAgrees | MACDNotification/src/com/sleepyduck/macdnotification/CalculateTechnicalAnalysis.java:119-129 | the zero-range-guarded %K equals calcPercentile wherever no range is zero |
| Analysis.ValidateCloses | MACDNotification/src/com/sleepyduck/macdnotification/CalculateTechnicalAnalysis.java:229-236 | validateData accepts exactly a non-null list without a negative close (the empty list included) |
| Analysis.StochasticRangesNonZero | MACDNotification/src/com/sleepyduck/macdnotification/CalculateTechnicalAnalysis.java:155 | for non-negative closes no %K division has a zero divisor |
| Analysis.SeriesLengths | MACDNotification/src/com/sleepyduck/macdnotification/CalculateTechnicalAnalysis.java:142-155 | for n closes: EMA12 has n-11 values, EMA26 n-25, the MACD line n-25, the 8/17 line n-16 and the histogram n-24 |
| Analysis.SnapshotOf | MACDNotification/src/com/sleepyduck/macdnotification/CalculateTechnicalAnalysis.java:137-165 | the value fields are the two newest closes; the MACD fields are EMA12 minus EMA26 at the last and second-to-last positions; the histogram fields are the 8/17 line minus its 9-period EMA at those positions; the stochastic fields are %K minus %D, where %D averages the five %K values before the one read; the SMA10 fields average the ten closes before the newest (and before the second newest), leaving the newest out |
| Analysis.CalculateMacd | MACDNotification/src/com/sleepyduck/macdnotification/CalculateTechnicalAnalysis.java:131-177 | as written: 0 closes give "could not be found", 1 to 25 give "Not enough data", exactly 26 give an index fault at -1, and values are computed exactly when there are at least 27 closes |
| Analysis.CalculateMacdSnapshot | MACDNotification/src/com/sleepyduck/macdnotification/CalculateTechnicalAnalysis.java:131-166 | for at least 27 closes calculateMACD reverses the newest-first list and reports the snapshot of the oldest-first series |
| Analysis.OtherReadsInRangeAt26 | MACDNotification/src/com/sleepyduck/macdnotification/CalculateTechnicalAnalysis.java:146-163 | at 26 closes every other list read is in range; only the read at line 146 fails |
| Analysis.LatestPercentWindow | MACDNotification/src/com/sleepyduck/macdnotification/CalculateTechnicalAnalysis.java:155 | the newest %K compares the newest close with the 14 closes before it |
| Analysis.TenClosesMessage | MACDNotification/src/com/sleepyduck/macdnotification/CalculateTechnicalAnalysis.java:167-170 | 10 closes give "Not enough data for <name>, only 10 values found" |
| Analysis.ConstantSeriesFlat | MACDNotification/src/com/sleepyduck/macdnotification/CalculateTechnicalAnalysis.java:141-165 | a flat price series gives a zero MACD and histogram, and an SMA10 equal to the price |
| Analysis.CalculateMacdCorrected | MACDNotification/src/com/sleepyduck/macdnotification/CalculateTechnicalAnalysis.java:131-177 | with the gate at 27 there is never an index fault; it computes iff there are at least 27 closes and otherwise gives the same messages |
| Analysis.CorrectedAgrees | MACDNotification/src/com/sleepyduck/macdnotification/CalculateTechnicalAnalysis.java:131-177 | away from 26 closes the corrected calculation takes the same branch and gives the same messages and non-stochastic values |
| Analysis.CorrectedFlatStochastic | MACDNotification/src/com/sleepyduck/macdnotification/CalculateTechnicalAnalysis.java:155 | with the true low and the zero-range guard, a flat series gives %K 0 everywhere |
| Query.FormatDateRoundTrip | MACDNotification/src/com/sleepyduck/macdnotification/CalculateTechnicalAnalysis.java:46-50 | "%04d-%02d-%02d" yields ten characters with dashes at 4 and 7, and reads back as the same date |
| Query.EscapeCloseIsEncode | MACDNotification/src/com/sleepyduck/macdnotification/CalculateTechnicalAnalysis.java:55 | the chain of four replace calls is a per-character percent-encoding of space, '=', '"' and '^' |
| Query.EscapeStockIsEncode | MACDNotification/src/com/sleepyduck/macdnotification/data/StockDataFetcher.java:52 | the chain of five replace calls also encodes ',' |
| Query.DecodeEncode | MACDNotification/src/com/sleepyduck/macdnotification/data/StockDataFetcher.java:52 | percent-decoding inverts the escaping for any text without '%' |
| Query.CloseRequestShape | MACDNotification/src/com/sleepyduck/macdnotification/CalculateTechnicalAnalysis.java:53-57 | the request is prefix + escaped query + suffix; the query part holds no raw space, '=', '"' or '^' and decodes back to the query text |
| Query.StockRequestShape | MACDNotification/src/com/sleepyduck/macdnotification/data/StockDataFetcher.java:50-54 | the same for the Adj_Close,High,Low query, with ',' also escaped |
| Symbols.EqualsName | MACDNotification/src/com/sleepyduck/macdnotification/data/Symbol.java:29-39 | equals with a String compares it to exactly the text toString gives |
| Symbols.DoRetry | MACDNotification/src/com/sleepyduck/macdnotification/data/Symbol.java:98-100 | doRetry answers whether the counter was positive and changes nothing but the counter |
| Symbols.RetryCountdown | MACDNotification/src/com/sleepyduck/macdnotification/data/Symbol.java:98-100 | while no wrap occurs, call i answers counter - i > 0 and k calls lower the counter by k |
| Symbols.FreshRetries | MACDNotification/src/com/sleepyduck/macdnotification/data/Symbol.java:13 | a fresh symbol answers true to the first three calls and false afterwards, up to 2^31 + 4 calls |
| Symbols.RetryWrapsAround | MACDNotification/src/com/sleepyduck/macdnotification/data/Symbol.java:98-100 | the int counter wraps: after 2^31 + 4 calls it is Integer.MAX_VALUE and the next call answers true |
| Symbols.FlaggedIffSignalsAgree | MACDNotification/src/com/sleepyduck/macdnotification/data/Symbol.java:160-178 | a point is a buy or a sell exactly when SMA10-below-close, %K-over-signal and histogram-non-negative all agree, and never both |
| Symbols.SellOn | MACDNotification/src/com/sleepyduck/macdnotification/data/Symbol.java:164-178 | a sell point has all three strict opposites and is never a buy point |
| Symbols.IsRuleNo1Buy | MACDNotification/src/com/sleepyduck/macdnotification/data/Symbol.java:102-112 | the newest point is never both a buy and a sell |
| Symbols.WasRuleNo1Buy | MACDNotification/src/com/sleepyduck/macdnotification/data/Symbol.java:106-116 | the second-newest point is never both a buy and a sell |
| Symbols.WasIsPrevious | MACDNotification/src/com/sleepyduck/macdnotification/data/Symbol.java:102-116 | the was* predicates say what the is* predicates said before the newest point was appended |
| Symbols.IsRuleNo1StochasticAbove80 | MACDNotification/src/com/sleepyduck/macdnotification/data/Symbol.java:130-136 | %K at or above 80 excludes %K at or below 20 |
| Symbols.IsValueAboveValuation | MACDNotification/src/com/sleepyduck/macdnotification/data/Symbol.java:138-141 | true only with a valuation that the newest close exceeds; without a valuation it is false and, as the short-circuit `&&` allows, needs no data |
| Symbols.IsValueBelowValuation50 | MACDNotification/src/com/sleepyduck/macdnotification/data/Symbol.java:143-146 | true only with a valuation more than twice the newest close; without a valuation it is false and needs no data; with a non-negative valuation it excludes the above-valuation signal |
| Symbols.ValuationChecksExclusive | MACDNotification/src/com/sleepyduck/macdnotification/data/Symbol.java:138-146 | both valuation signals hold together only for a negative valuation |
| Symbols.ToElement | MACDNotification/src/com/sleepyduck/macdnotification/data/Symbol.java:42-49 | putAttributes writes name and displayName always, and writes ruleNo1Valuation iff there is a valuation |
| Symbols.FromElement | MACDNotification/src/com/sleepyduck/macdnotification/data/Symbol.java:20-26 | the XML constructor fails iff the valuation attribute is present and does not parse; name and displayName are the attributes or ""; the valuation is present iff its attribute is, and is what Float.valueOf gave; it starts with no data and 3 retries |
| Symbols.SymbolRoundTrip | MACDNotification/src/com/sleepyduck/macdnotification/data/Symbol.java:20-49 | writing then reading restores name, displayName and valuation, drops the stock data and resets the counter |
| Groups.GroupEqualsName | MACDNotification/src/com/sleepyduck/macdnotification/data/Group.java:31-41 | equals with a String compares it to exactly the text toString gives |
| Groups.SymbolNamed | MACDNotification/src/com/sleepyduck/macdnotification/data/Group.java:57-64 | getSymbol(String) is null iff no symbol has the name; otherwise it returns the first one that does |
| Groups.FirstNamedFrom | MACDNotification/src/com/sleepyduck/macdnotification/data/Group.java:57-64 | the search returns the symbol at the first position holding the name |
| Groups.SymbolAt | MACDNotification/src/com/sleepyduck/macdnotification/data/Group.java:66-70 | getSymbol(int) returns the symbol at i, or null past the end |
| Groups.AddSymbol | MACDNotification/src/com/sleepyduck/macdnotification/data/Group.java:72-76 | appends one fresh symbol with the given name and valuation and keeps the others in place |
| Groups.RemoveSymbol | MACDNotification/src/com/sleepyduck/macdnotification/data/Group.java:82-86 | returns the symbol at i and shifts the later ones down; past the end it returns null and changes nothing |
| Groups.RemoveThenInsert | MACDNotification/src/com/sleepyduck/macdnotification/data/Group.java:82-86 | inserting the removed symbol back at i restores the group |
| Groups.AddThenLookup | MACDNotification/src/com/sleepyduck/macdnotification/data/Group.java:57-76 | after an add the new symbol is at the old length, and lookup by name finds it unless an earlier symbol has the name |
| Groups.SymbolsElement | MACDNotification/src/com/sleepyduck/macdnotification/data/Group.java:47-50 | the Symbols child has one element per symbol, in list order |
| Groups.SymbolsFrom | MACDNotification/src/com/sleepyduck/macdnotification/data/Group.java:22-27 | the loop builds one symbol per child in child order, and succeeds iff every child does |
| Groups.GroupFromElement | MACDNotification/src/com/sleepyduck/macdnotification/data/Group.java:19-28 | the name defaults to ""; without a Symbols child the group is empty; with one, the group is built iff every child symbol is, and holds those symbols in child order |
| Groups.GroupRoundTrip | MACDNotification/src/com/sleepyduck/macdnotification/data/Group.java:19-51 | writing then reading a group keeps its name and the order of its symbols, each reset as in the symbol round trip |
| Xml.AddAttribute | MACDNotification/src/com/sleepyduck/macdnotification/data/Symbol.java:44-48 | an added attribute reads back, and other attributes, the tag and the children are unchanged |
| Xml.GetElement | MACDNotification/src/com/sleepyduck/macdnotification/data/Group.java:21 | getElement finds a child with the tag iff one exists, and returns the first one |
| Registry.GetGroup | MACDNotification/src/com/sleepyduck/macdnotification/data/DataController.java:37-42 | getGroup returns the group at i, or null past the end |
| Registry.AddGroup | MACDNotification/src/com/sleepyduck/macdnotification/data/DataController.java:65-69 | appends a new empty group with the name and keeps the others |
| Registry.AddSymbolTo | MACDNotification/src/com/sleepyduck/macdnotification/data/DataController.java:57-63 | past the last group it returns null and changes nothing; otherwise it appends to exactly that group |
| Registry.AllSymbols | MACDNotification/src/com/sleepyduck/macdnotification/data/DataController.java:71-77 | getAllSymbols holds as many symbols as all groups together, exactly the symbols of the groups, and in group order: for every k, the groups before k, then group k's symbols in their order, then the groups after k |
| Registry.FlattenAppend | MACDNotification/src/com/sleepyduck/macdnotification/data/DataController.java:71-77 | the flattened symbols of two group lists in a row are the first list's symbols followed by the second's |
| Registry.FlattenSplit | MACDNotification/src/com/sleepyduck/macdnotification/data/DataController.java:71-77 | the flattened list is the symbols of the groups before k, then group k's symbols in their order, then those of the groups after k |
| Registry.AllSymbolsGrowth | MACDNotification/src/com/sleepyduck/macdnotification/data/DataController.java:57-77 | addGroup leaves getAllSymbols unchanged; a successful addSymbol adds exactly one symbol to it |
| Prefs.GetInt | MACDNotification/src/com/sleepyduck/macdnotification/data/DataController.java:248 | getInt gives the default when the key is absent and throws iff the stored value is a string |
| Prefs.GetString | MACDNotification/src/com/sleepyduck/macdnotification/data/DataController.java:250 | getString gives the default when the key is absent and throws iff the stored value is an int |
| Prefs.ParseLine | MACDNotification/src/com/sleepyduck/macdnotification/data/DataController.java:216-227 | a line with fewer than two parts is ignored, only the key's entry can change, and ints go exactly under "count" keys |
| Prefs.ReadLines | MACDNotification/src/com/sleepyduck/macdnotification/data/DataController.java:214-228 | the while loop over the file's lines folds the line parser and keeps the ints-under-count-keys invariant |
| Prefs.StringLineRoundTrip | MACDNotification/src/com/sleepyduck/macdnotification/data/DataController.java:216-225 | a key<=>value line with a non-count key stores the value as a string |
| Prefs.IntLineRoundTrip | MACDNotification/src/com/sleepyduck/macdnotification/data/DataController.java:216-220 | a count key with a 32-bit number in decimal stores that int |
| Prefs.BadCountLineIgnored | MACDNotification/src/com/sleepyduck/macdnotification/data/DataController.java:219-223 | a count line whose value Integer.parseInt refuses (over ASCII digits) is dropped and keeps the earlier value |
| Prefs.NoSeparatorIgnored | MACDNotification/src/com/sleepyduck/macdnotification/data/DataController.java:216-217 | a line without "<=>" is ignored |
| Prefs.EmptyValueIgnored | MACDNotification/src/com/sleepyduck/macdnotification/data/DataController.java:216-217 | "key<=>" is ignored because split drops the trailing empty part |
| Registry.SymbolNameAt | MACDNotification/src/com/sleepyduck/macdnotification/data/DataController.java:255-258 | the "jname" key wins when it is non-empty; otherwise the ":j:name" key is read |
| Registry.LoadSymbols | MACDNotification/src/com/sleepyduck/macdnotification/data/DataController.java:254-260 | the inner loop creates exactly count fresh symbols, in order, without valuation |
| Registry.LoadGroups | MACDNotification/src/com/sleepyduck/macdnotification/data/DataController.java:249-261 | the outer loop creates exactly count groups, in order, and succeeds iff every group does |
| Registry.Load1Shape | MACDNotification/src/com/sleepyduck/macdnotification/data/DataController.java:245-262 | a successful load_1 builds "count" groups, each with its name (default "Group") and its symbol count |
| Registry.KeysKinds | MACDNotification/src/com/sleepyduck/macdnotification/data/DataController.java:248-257 | the two count keys contain "count" and the three name keys do not |
| Registry.Load1Total | MACDNotification/src/com/sleepyduck/macdnotification/data/DataController.java:245-262 | on a store with ints exactly under the count keys, load_1 never throws ClassCastException |
| Registry.LoadAfterRead | MACDNotification/src/com/sleepyduck/macdnotification/data/DataController.java:190-262 | load_1 after loadFromFile_1 never throws, whatever the file holds |
| Registry.LoadLegacy | MACDNotification/src/com/sleepyduck/macdnotification/data/DataController.java:245-262 | the nested Java loops compute exactly load_1's result |
| Fetcher.OnStart | MACDNotification/src/com/sleepyduck/macdnotification/data/StockDataFetcher.java:105-113 | each start tag resets the three flags from its lower-cased name; "quote" prepends a fresh data point |
| Fetcher.OnCharacters | MACDNotification/src/com/sleepyduck/macdnotification/data/StockDataFetcher.java:92-102 | text sets Close, else High, else Low of the newest point by flag priority; it fails iff a flag is set and there is no point or the text does not parse |
| Fetcher.ParseEvents | MACDNotification/src/com/sleepyduck/macdnotification/data/StockDataFetcher.java:82-121 | a successful parse holds one point per "quote" start tag |
| Fetcher.ParseLoop | MACDNotification/src/com/sleepyduck/macdnotification/data/StockDataFetcher.java:82-121 | the event loop computes parseData, null on any exception |
| Fetcher.NoneStaysNone | MACDNotification/src/com/sleepyduck/macdnotification/data/StockDataFetcher.java:115-119 | once the handler throws, the parse result stays null |
| Fetcher.ParseIsReversed | MACDNotification/src/com/sleepyduck/macdnotification/data/StockDataFetcher.java:111 | prepending at index 0 gives the quotes newest first: the result is the reverse of the document-order list, and it fails on exactly the same inputs |
| Fetcher.FlaggedTextBeforeQuote | MACDNotification/src/com/sleepyduck/macdnotification/data/StockDataFetcher.java:95-100 | price text before any quote element makes parseData return null |
| Fetcher.TextAfterEndTagStillFlagged | MACDNotification/src/com/sleepyduck/macdnotification/data/StockDataFetcher.java:92-113 | flags are cleared only by the next start tag, so text after </Adj_Close> is parsed as a price again |
| Fetcher.ValidateData | MACDNotification/src/com/sleepyduck/macdnotification/data/StockDataFetcher.java:137-146 | accepts exactly a non-null, non-empty list whose closes are all non-negative |
| Fetcher.ValidImpliesClosesValid | MACDNotification/src/com/sleepyduck/macdnotification/data/StockDataFetcher.java:137-146 | data that passes this validator has non-empty, non-negative closes |
| Fetcher.PreCalculate | MACDNotification/src/com/sleepyduck/macdnotification/data/StockDataFetcher.java:123-135 | always answers true and attaches `indicators(data)` (calculateIndicators of the given list) as the symbol's data, changing nothing else in the symbol |
| Fetcher.Attempt | MACDNotification/src/com/sleepyduck/macdnotification/data/StockDataFetcher.java:180-196 | a symbol without data gets data iff the URI is built, the fetch succeeds and the parse validates; the data it gets is `indicators` of the list parsed from the fetched payload, and nothing else in the symbol changes |
| Fetcher.Drain | MACDNotification/src/com/sleepyduck/macdnotification/data/StockDataFetcher.java:175-199 | the loop either empties the queue or leaves exactly a suffix of it |
| Fetcher.Worker | MACDNotification/src/com/sleepyduck/macdnotification/data/StockDataFetcher.java:175-199 | the while loop with its break publishes and leaves exactly what Drain describes |
| Fetcher.CachedPublishedTwice | MACDNotification/src/com/sleepyduck/macdnotification/data/StockDataFetcher.java:178-198 | a symbol that already has data is published twice in a row |
| Fetcher.FailureStopsWorker | MACDNotification/src/com/sleepyduck/macdnotification/data/StockDataFetcher.java:186-196 | a failing symbol is not published, and the worker stops with the rest of the queue left |
| Fetcher.DrainWithoutFailure | MACDNotification/src/com/sleepyduck/macdnotification/data/StockDataFetcher.java:175-199 | without failures the queue empties, with one publication per symbol plus one per cached symbol |
| Fetcher.DrainCorrected | MACDNotification/src/com/sleepyduck/macdnotification/data/StockDataFetcher.java:175-199 | the corrected loop publishes each symbol's result exactly once, in queue order |
| Fetcher.CorrectedPublishesOnce | MACDNotification/src/com/sleepyduck/macdnotification/data/StockDataFetcher.java:175-199 | the corrected loop publishes as many symbols as queued, with the same names in the same order |
| Fetcher.CorrectedAgreesWithoutCacheOrFailure | MACDNotification/src/com/sleepyduck/macdnotification/data/StockDataFetcher.java:175-199 | without cached symbols or failures the two loops publish the same list |
| Fetcher.FailedSymbolReachesListener | MACDNotification/src/com/sleepyduck/macdnotification/ActivityMACD.java:45-50 | the corrected loop hands a failed symbol to the listener without data, which the retry needs; the original publishes nothing |
| Text.ParseIntToString | MACDNotification/src/com/sleepyduck/macdnotification/data/DataController.java:220 | Integer.parseInt reads back every 32-bit int rendered in decimal |
| Text.SplitJoined | MACDNotification/src/com/sleepyduck/macdnotification/data/DataController.java:216 | split("<=>") of key + "<=>" + value gives [key, value] when neither part contains '<' and the value is non-empty |

## Left out

- Threads are left out: the ten worker threads, the synchronized queue they share, the
  Handler posts of publishProgress and publishResult, and the listener callbacks. One
  worker is modelled over an immutable queue. Interleavings with the other nine are not.
- fetchData (HTTP) and the calendar arithmetic of buildURI are left out. The fetch is the
  `fetch` parameter of `Fetcher.Env`; the start and end dates are inputs to the query text.
- The SAX parser is left out. Its callbacks are an input sequence of `Fetcher.SaxEvent`.
  A malformed document is the `sax` parameter returning None.
- CalculateTechnicalAnalysis.parseData, fetchData and execute (lines 179-227 and 258-296)
  are left out. They are the older close-only fetcher, and the StockDataFetcher
  equivalents are modelled.
- Java float arithmetic is modelled with exact reals: there is no rounding, no NaN and no
  Infinity. Float.valueOf and String.valueOf(float) are parameters.
- Indicators.Percentile: requires no zero range. The Java would divide by zero and yield
  Infinity or NaN, which reals cannot express. `Analysis.StochasticRangesNonZero` shows
  that the condition holds for the non-negative closes calculateMACD receives.
- Indicators.CalcSma: requires a window that starts inside the list and has at least one
  day (0 <= start < n, days >= 1). Otherwise the Java divides a float by zero or by a
  negative count. Every call in calculateMACD meets this once at least 27 closes arrive.
- Analysis.CalculateMacd: requires non-negative closes. execute calls it only after
  validateData accepts the list (CalculateTechnicalAnalysis.java:278-279).
- Analysis.CalculateMacd: models neither setDataTime (the clock) nor the setters run
  before the exception at 26 closes. The fault outcome carries no partial symbol state.
- StockDataList.calculateIndicators is not part of this model. It is the `indicators`
  parameter, so the Rule #1 fields of `Symbols.StockData` are inputs.
- getDataText, the display name lookup and the UI activities are left out.
- File and Bundle persistence are left out: loadFromFile, saveToFile, load and save. Only
  the line parser inside loadFromFile_1 and the load_1 loops are modelled. The file's
  lines are an input.
- XMLElement and XMLParsableAdaptor are not part of this model. Only addAttribute,
  getAttribute, addChild and getElement are modelled, and the element tag names
  "Symbol" and "Group" are assumed. super.putAttributes is not modelled. Because
  XMLElement's code is not part of this model, its behaviour is assumed: getElement
  returns the first child with the tag, and addAttribute replaces the value of an
  attribute that is already there.
- getGroupIndex and CollectionUtil are not part of this model.
- equals with a non-String argument falls back to Object identity and is not modelled.
- Group.getSymbol(int), removeSymbol and DataController.getGroup take a `nat` index. A
  negative index makes the Java list throw, which is not modelled.
- Symbols.FromElement: assumes Float.valueOf is given as a parameter. The symbol round
  trip holds only when that parameter reads String.valueOf's text back to the same
  value, which the lemma's requires states.
- Query.FormatDate: writes ASCII digits. String.format without a Locale uses the default
  locale's zero digit, so under a locale such as Arabic or Persian the Java writes
  U+0660-style digits. FormatDateRoundTrip and the two RequestShape rows hold only for
  locales whose digits are ASCII.
- Fetcher.Attempt: buildURI is the `buildUri` parameter rather than `Query.StockRequest`,
  because new URI(...) validation is not modelled.
- Fetcher.OnStart: `Text.Lower` lower-cases ASCII only. Java's toLowerCase also maps
  other letters, but the handler compares only against the ASCII names "adj_close",
  "high", "low" and "quote". Outside Turkish and Azeri locales no non-ASCII letter
  lower-cases to one of those names; under those locales 'I' lower-cases to a dotless i,
  which is not modelled.
- Fetcher.Drain: returns updated copies of the symbols it publishes. The Java mutates
  the shared Symbol objects in place (preCalculateIndicators sets their data), so the
  registry's own symbols change too; that aliasing is not modelled.
- Fetcher.Worker: the same as Fetcher.Drain; the published symbols are copies, not the
  registry's objects.
- Symbols.Latest: requires data with at least one point. The Rule #1 and stochastic
  getters that read it throw a NullPointerException without data and an
  IndexOutOfBoundsException on an empty list; those throws are not modelled. The two
  valuation checks read the data only when there is a valuation, and their requires
  say exactly that.
- Text.ParseInt: accepts ASCII digits only. Integer.parseInt reads each character with
  Character.digit, which also accepts the other Unicode decimal digits of the Basic
  Multilingual Plane (for example the fullwidth '３'); which characters those are depends
  on the runtime's Unicode tables, so they are not modelled. Prefs.ParseLine therefore
  drops a count line such as "group:count<=>３" that the Java stores as the int 3.
- Prefs.BadCountLineIgnored: "does not parse" means ParseInt above returns None. For a
  value written in non-ASCII decimal digits the Java stores an int instead of dropping
  the line.
- Symbols.Previous: requires data with at least two points, for the same reason.

## Findings

| source | as written | input that shows it | evidently intended | confidence | as-written member | corrected member |
|---|---|---|---|---|---|---|
| MACDNotification/src/com/sleepyduck/macdnotification/CalculateTechnicalAnalysis.java:134-146 | the gate `closeData.size() >= 26` admits 26 closes, but then `macdLine.get(macdLine.size() - 2)` reads index -1, because the MACD line has n - 25 values | 26 non-negative closes | a gate of 27 closes, the fewest for which the MACD line has two values | not executed | Analysis.CalculateMacd | Analysis.CalculateMacdCorrected |
| MACDNotification/src/com/sleepyduck/macdnotification/CalculateTechnicalAnalysis.java:107-117 | calcLowest seeds its running minimum with -1, so for non-negative prices every window minimum is -1 and %K measures against a floor of -1 | any 15 non-negative closes, e.g. fifteen closes of 10 give a low of -1 instead of 10 | the seed is the window's first value, making the value the true 14-day low | not executed | Indicators.LowestIsMinusOne | Indicators.TrueLowestIsWindowMin |
| MACDNotification/src/com/sleepyduck/macdnotification/data/StockDataFetcher.java:175-199 | a symbol that already has data is published at line 179 and again at line 198; a failed fetch breaks out without publishing, so the listener's retry (ActivityMACD.java:46-47) never sees it, and the rest of the queue is left to the other workers | a queue whose first symbol has data (published twice), or whose first symbol's fetch returns null (published never) | each symbol published once, a failure published without data so the retry can run, and the loop continuing | not executed | Fetcher.CachedPublishedTwice | Fetcher.DrainCorrected |

=== FILE: analysis.dfy ===
/** calculateMACD and validateData of CalculateTechnicalAnalysis.java: the input
    validation, the size-gated branch, and the values the branch hands to the
    Symbol setters, collected into one Snapshot record. */
module Analysis {
  import opened Util
  import opened Text
  import opened Indicators

  /** The values calculateMACD passes to setValue, setValueOld, setMACD, ... */
  datatype Snapshot = Snapshot(
    value: real, valueOld: real,
    macd: real, macdOld: real,
    histogram: real, histogramOld: real,
    stochastic: real, stochasticOld: real,
    sma: real, smaOld: real)

  /** Outcome of calculateMACD: the snapshot, one of the two progress messages, or
      the IndexOutOfBoundsException of a list read at a negative index. */
  datatype Outcome =
    | Computed(snapshot: Snapshot)
    | NotEnoughData(message: string)
    | NotFound(message: string)
    | IndexFault(index: int)

  /** Fewest closes the size gate at line 134 lets through. */
  const MacdMinimum: int := 26

  predicate NonNegative(v: seq<real>)
  {
    forall i :: 0 <= i < |v| ==> v[i] >= 0.0
  }

  /** validateData: null is refused, a negative close is refused, an empty list passes. */
  method ValidateCloses(data: Option<seq<real>>) returns (ok: bool)
    ensures ok <==> data.Some? && NonNegative(data.value)
  {
    if data.None? {
      return false;
    }
    var v := data.value;
    var i := 0;
    while i < |v|
      invariant 0 <= i <= |v|
      invariant forall j :: 0 <= j < i ==> v[j] >= 0.0
    {
      if v[i] < 0.0 {
        return false;
      }
      i := i + 1;
    }
    return true;
  }

  function MacdLine(c: seq<real>): seq<real>
    requires 1 <= |c|
  {
    Diff(Ema(c, 12), Ema(c, 26))
  }

  /** The 8/17 line of "MACD Rule #1". */
  function RuleLine(c: seq<real>): (r: seq<real>)
    requires 1 <= |c|
    ensures 1 <= |r|
  {
    Diff(Ema(c, 8), Ema(c, 17))
  }

  /** The 8/17 line minus its own 9-period EMA. */
  function Histogram(c: seq<real>): seq<real>
    requires 1 <= |c|
  {
    Diff(RuleLine(c), Ema(RuleLine(c), 9))
  }

  /** With non-negative closes calcLowest yields -1 and calcHighest at least 0, so
      no %K denominator is zero. */
  lemma StochasticRangesNonZero(c: seq<real>)
    requires NonNegative(c) && 14 < |c|
    ensures RangesNonZero(Highest(c, 14), Lowest(c, 14), c)
  {
    var h, l := Highest(c, 14), Lowest(c, 14);
    LowestIsMinusOne(c, 14);
    forall t | 1 <= t <= Min3(|h|, |l|, |c|)
      ensures FromEnd(h, t) != FromEnd(l, t)
    {
      var i := |h| - t;
      assert c[i..i + 14][0] == c[i];
      assert FromEnd(l, t) == l[i] == -1.0;
    }
  }

  /** %K as calculateMACD computes it. */
  function StochasticK(c: seq<real>): (k: seq<real>)
    requires NonNegative(c) && 14 < |c|
    ensures |k| == |c| - 14
  {
    StochasticRangesNonZero(c);
    Percentile(Highest(c, 14), Lowest(c, 14), c)
  }

  /** The list lengths calculateMACD relies on. */
  lemma SeriesLengths(c: seq<real>)
    requires 26 <= |c|
    ensures |Ema(c, 12)| == |c| - 11 && |Ema(c, 26)| == |c| - 25
    ensures |MacdLine(c)| == |c| - 25
    ensures |RuleLine(c)| == |c| - 16
    ensures |Histogram(c)| == |c| - 24
  {
  }

  function NotEnoughMessage(name: string, n: int): string
  {
    "Not enough data for " + name + ", only " + IntToString(n) + " values found"
  }

  function NotFoundMessage(name: string): string
  {
    name + " could not be found"
  }

  /** The MACD line read t places from its end (lines 145-146). */
  function MacdAt(c: seq<real>, t: int): (m: real)
    requires |c| >= 27 && 1 <= t <= 2
    ensures m == FromEnd(Ema(c, 12), t) - FromEnd(Ema(c, 26), t)
  {
    SeriesLengths(c);
    FromEnd(MacdLine(c), t)
  }

  /** The histogram read t places from its end (lines 151-152): the 8/17 line
      minus its 9-period EMA. */
  function HistogramAt(c: seq<real>, t: int): (h: real)
    requires |c| >= 27 && 1 <= t <= 2
    ensures h == FromEnd(RuleLine(c), t) - FromEnd(Ema(RuleLine(c), 9), t)
  {
    SeriesLengths(c);
    FromEnd(Histogram(c), t)
  }

  /** %K t places from its end minus %D, the five-day SMA of %K read at
      k.size() - 5 - t (lines 156-159): the five %K values before that one. */
  function StochasticAt(k: seq<real>, t: int): (x: real)
    requires |k| >= 7 && 1 <= t <= 2
    ensures x == FromEnd(k, t) - Sum(k[|k| - 5 - t..|k| - t]) / 5.0
  {
    var start := |k| - 5 - t;
    SmaFullWindow(k, start, 5);
    assert start + 5 == |k| - t;
    assert Sma(k, start, 5) == Sum(k[start..|k| - t]) / 5.0;
    FromEnd(k, t) - Sma(k, start, 5)
  }

  /** The stochastic field read t places from the end of calculateMACD's %K. */
  function StochasticFieldAt(c: seq<real>, t: int): (x: real)
    requires NonNegative(c) && |c| >= 27 && 1 <= t <= 2
    ensures x == FromEnd(StochasticK(c), t) - Sum(StochasticK(c)[|c| - 19 - t..|c| - 14 - t]) / 5.0
  {
    StochasticAt(StochasticK(c), t)
  }

  /** The stochastic field read t places from the end of the corrected %K. */
  function CorrectedStochasticFieldAt(c: seq<real>, t: int): (x: real)
    requires |c| >= 27 && 1 <= t <= 2
    ensures x == FromEnd(CorrectedStochasticK(c), t) - Sum(CorrectedStochasticK(c)[|c| - 19 - t..|c| - 14 - t]) / 5.0
  {
    StochasticAt(CorrectedStochasticK(c), t)
  }

  /** The SMA10 read at closeData.size() - 10 - t (lines 162-163): the ten closes
      before the one t places from the end. */
  function Sma10At(c: seq<real>, t: int): (a: real)
    requires |c| >= 12 && 1 <= t <= 2
    ensures a == Sum(c[|c| - 10 - t..|c| - t]) / 10.0
  {
    var start := |c| - 10 - t;
    SmaFullWindow(c, start, 10);
    assert start + 10 == |c| - t;
    assert Sma(c, start, 10) == Sum(c[start..|c| - t]) / 10.0;
    Sma(c, start, 10)
  }

  /** The values the computing branch of calculateMACD reads, for oldest-first closes
      long enough that every read is in range. The SMA10 values leave out the newest
      close: they average the ten closes before it (and before the second newest).
      Likewise %D, the five-day SMA of %K, averages the five %K values before the
      newest one, and the stochastic fields are %K minus %D. */
  function SnapshotOf(c: seq<real>): (s: Snapshot)
    requires NonNegative(c) && |c| >= 27
    ensures s.value == c[|c| - 1] && s.valueOld == c[|c| - 2]
    ensures s.macd == FromEnd(Ema(c, 12), 1) - FromEnd(Ema(c, 26), 1)
    ensures s.macdOld == FromEnd(Ema(c, 12), 2) - FromEnd(Ema(c, 26), 2)
    ensures s.histogram == FromEnd(RuleLine(c), 1) - FromEnd(Ema(RuleLine(c), 9), 1)
    ensures s.histogramOld == FromEnd(RuleLine(c), 2) - FromEnd(Ema(RuleLine(c), 9), 2)
    ensures s.stochastic == FromEnd(StochasticK(c), 1) - Sum(StochasticK(c)[|c| - 20..|c| - 15]) / 5.0
    ensures s.stochasticOld == FromEnd(StochasticK(c), 2) - Sum(StochasticK(c)[|c| - 21..|c| - 16]) / 5.0
    ensures s.sma == Sum(c[|c| - 11..|c| - 1]) / 10.0
    ensures s.smaOld == Sum(c[|c| - 12..|c| - 2]) / 10.0
  {
    Snapshot(
      c[|c| - 1], c[|c| - 2],
      MacdAt(c, 1), MacdAt(c, 2),
      HistogramAt(c, 1), HistogramAt(c, 2),
      StochasticFieldAt(c, 1), StochasticFieldAt(c, 2),
      Sma10At(c, 1), Sma10At(c, 2))
  }

  /** Reversal keeps every close non-negative. */
  lemma ReverseNonNegative(v: seq<real>)
    requires NonNegative(v)
    ensures NonNegative(Reverse(v))
  {
  }

  /** calculateMACD as written. The closes arrive newest first and are reversed.
      The read of the second-to-last MACD value at line 146 uses index |macd| - 2,
      which is -1 when exactly 26 closes arrive. */
  function CalculateMacd(name: string, newestFirst: seq<real>): (r: Outcome)
    requires NonNegative(newestFirst)
    ensures |newestFirst| == 26 ==> r == IndexFault(-1)
    ensures 0 < |newestFirst| < 26 ==> r == NotEnoughData(NotEnoughMessage(name, |newestFirst|))
    ensures |newestFirst| == 0 ==> r == NotFound(NotFoundMessage(name))
    ensures |newestFirst| >= 27 <==> r.Computed?
    ensures r.Computed? ==>
      && r.snapshot.value == newestFirst[0]
      && r.snapshot.valueOld == newestFirst[1]
      && r.snapshot.macd == FromEnd(Ema(Reverse(newestFirst), 12), 1) - FromEnd(Ema(Reverse(newestFirst), 26), 1)
      && r.snapshot.macdOld == FromEnd(Ema(Reverse(newestFirst), 12), 2) - FromEnd(Ema(Reverse(newestFirst), 26), 2)
  {
    var c := Reverse(newestFirst);
    var n := |c|;
    ReverseNonNegative(newestFirst);
    if n >= MacdMinimum then
      var macd := MacdLine(c);
      if |macd| < 2 then IndexFault(|macd| - 2)
      else Computed(SnapshotOf(c))
    else if n > 0 then NotEnoughData(NotEnoughMessage(name, n))
    else NotFound(NotFoundMessage(name))
  }

  /** At n = 26 every read other than the failing one is in range: the histogram has
      two values, %K has twelve (the two %D windows start at 6 and 5), and both SMA10
      windows fit. */
  lemma OtherReadsInRangeAt26(c: seq<real>)
    requires |c| == 26 && NonNegative(c)
    ensures |MacdLine(c)| == 1
    ensures |Histogram(c)| == 2
    ensures |StochasticK(c)| == 12
    ensures 0 <= |c| - 12 && |c| - 11 + 10 <= |c|
  {
    SeriesLengths(c);
  }

  /** The newest %K compares the newest close with the fourteen closes before it:
      the window that would include the newest close itself is never produced. */
  lemma LatestPercentWindow(c: seq<real>)
    requires NonNegative(c) && |c| >= 15
    ensures var n := |c|;
      FromEnd(StochasticK(c), 1) == PercentOf(c[n - 1], FoldMin(-1.0, c[n - 15..n - 1]), FoldMax(-1.0, c[n - 15..n - 1]))
  {
    var n := |c|;
    var h, l := Highest(c, 14), Lowest(c, 14);
    assert FromEnd(h, 1) == h[n - 15];
    assert FromEnd(l, 1) == l[n - 15];
  }

  /** The insufficient-data message names the symbol and the count: 10 closes give
      "Not enough data for <name>, only 10 values found". */
  lemma TenClosesMessage(name: string, newestFirst: seq<real>)
    requires NonNegative(newestFirst) && |newestFirst| == 10
    ensures CalculateMacd(name, newestFirst)
      == NotEnoughData("Not enough data for " + name + ", only 10 values found")
  {
    assert IntToString(10) == "10";
  }

  /** The difference of two constant series is constant. */
  lemma DiffConstant(l: seq<real>, r: seq<real>, p: real, q: real)
    requires IsConstant(l, p) && IsConstant(r, q)
    ensures IsConstant(Diff(l, r), p - q)
  {
    var d := Diff(l, r);
    forall i | 0 <= i < |d|
      ensures d[i] == p - q
    {
      assert d[i] == FromEnd(d, |d| - i);
    }
  }

  /** The two newest reads of two series of the same constant differ by zero. */
  lemma FlatReads(l: seq<real>, r: seq<real>, p: real)
    requires 2 <= |l| && 2 <= |r| && IsConstant(l, p) && IsConstant(r, p)
    ensures FromEnd(l, 1) - FromEnd(r, 1) == 0.0 && FromEnd(l, 2) - FromEnd(r, 2) == 0.0
  {
    assert FromEnd(l, 1) == l[|l| - 1] && FromEnd(l, 2) == l[|l| - 2];
    assert FromEnd(r, 1) == r[|r| - 1] && FromEnd(r, 2) == r[|r| - 2];
  }

  /** For a constant price series the MACD line and histogram are zero and the
      SMA10 is the price. */
  lemma ConstantSeriesFlat(c: seq<real>, p: real)
    requires |c| >= 27 && p >= 0.0 && IsConstant(c, p)
    ensures var s := SnapshotOf(c);
      s.macd == 0.0 && s.macdOld == 0.0 && s.histogram == 0.0 && s.histogramOld == 0.0
      && s.sma == p && s.smaOld == p
  {
    var s := SnapshotOf(c);
    SeriesLengths(c);
    EmaConstant(c, 12, p);
    EmaConstant(c, 26, p);
    FlatReads(Ema(c, 12), Ema(c, 26), p);
    EmaConstant(c, 8, p);
    EmaConstant(c, 17, p);
    var rule := RuleLine(c);
    DiffConstant(Ema(c, 8), Ema(c, 17), p, p);
    assert IsConstant(rule, 0.0);
    EmaConstant(rule, 9, 0.0);
    FlatReads(rule, Ema(rule, 9), 0.0);
    SmaConstant(c, |c| - 11, 10, p);
    SmaFullWindow(c, |c| - 11, 10);
    SmaConstant(c, |c| - 12, 10, p);
    SmaFullWindow(c, |c| - 12, 10);
  }

  // ---------------------------------------------------------------------------
  // The corrected calculation.

  /** Fewest closes for which the MACD line has the two values the branch reads. */
  const CorrectedMinimum: int := 27

  /** %K with the corrected window minimum and a zero range giving 0. */
  function CorrectedStochasticK(c: seq<real>): (k: seq<real>)
    requires 14 < |c|
    ensures |k| == |c| - 14
  {
    GuardedPercentile(Highest(c, 14), TrueLowest(c, 14), c)
  }

  /** The values of the corrected computing branch: the same reads as SnapshotOf,
      with %K taken from the corrected series. */
  function CorrectedSnapshotOf(c: seq<real>): (s: Snapshot)
    requires |c| >= CorrectedMinimum
    ensures s.value == c[|c| - 1] && s.valueOld == c[|c| - 2]
    ensures s.macd == FromEnd(Ema(c, 12), 1) - FromEnd(Ema(c, 26), 1)
    ensures s.macdOld == FromEnd(Ema(c, 12), 2) - FromEnd(Ema(c, 26), 2)
    ensures s.histogram == FromEnd(RuleLine(c), 1) - FromEnd(Ema(RuleLine(c), 9), 1)
    ensures s.histogramOld == FromEnd(RuleLine(c), 2) - FromEnd(Ema(RuleLine(c), 9), 2)
    ensures s.stochastic == FromEnd(CorrectedStochasticK(c), 1) - Sum(CorrectedStochasticK(c)[|c| - 20..|c| - 15]) / 5.0
    ensures s.stochasticOld == FromEnd(CorrectedStochasticK(c), 2) - Sum(CorrectedStochasticK(c)[|c| - 21..|c| - 16]) / 5.0
    ensures s.sma == Sum(c[|c| - 11..|c| - 1]) / 10.0
    ensures s.smaOld == Sum(c[|c| - 12..|c| - 2]) / 10.0
  {
    Snapshot(
      c[|c| - 1], c[|c| - 2],
      MacdAt(c, 1), MacdAt(c, 2),
      HistogramAt(c, 1), HistogramAt(c, 2),
      CorrectedStochasticFieldAt(c, 1), CorrectedStochasticFieldAt(c, 2),
      Sma10At(c, 1), Sma10At(c, 2))
  }

  /** calculateMACD with the size gate at 27, the true 14-day low, and the zero-range
      guard; every list read is in range and no division is by zero. */
  function CalculateMacdCorrected(name: string, newestFirst: seq<real>): (r: Outcome)
    ensures !r.IndexFault?
    ensures |newestFirst| >= CorrectedMinimum <==> r.Computed?
    ensures 0 < |newestFirst| < CorrectedMinimum ==> r == NotEnoughData(NotEnoughMessage(name, |newestFirst|))
    ensures |newestFirst| == 0 ==> r == NotFound(NotFoundMessage(name))
    ensures r.Computed? ==> r.snapshot.value == newestFirst[0] && r.snapshot.valueOld == newestFirst[1]
  {
    var c := Reverse(newestFirst);
    var n := |c|;
    if n >= CorrectedMinimum then Computed(CorrectedSnapshotOf(c))
    else if n > 0 then NotEnoughData(NotEnoughMessage(name, n))
    else NotFound(NotFoundMessage(name))
  }

  /** The computing branch of calculateMACD hands over exactly SnapshotOf of the
      reversed closes. */
  lemma CalculateMacdSnapshot(name: string, newestFirst: seq<real>)
    requires NonNegative(newestFirst) && |newestFirst| >= 27
    ensures NonNegative(Reverse(newestFirst))
    ensures CalculateMacd(name, newestFirst) == Computed(SnapshotOf(Reverse(newestFirst)))
  {
    ReverseNonNegative(newestFirst);
    SeriesLengths(Reverse(newestFirst));
  }

  /** The correction changes only the stochastic values: the price, MACD, histogram
      and SMA10 fields are those of the original. */
  lemma CorrectedSnapshotAgrees(c: seq<real>)
    requires NonNegative(c) && |c| >= 27
    ensures SnapshotOf(c).(stochastic := 0.0, stochasticOld := 0.0)
      == CorrectedSnapshotOf(c).(stochastic := 0.0, stochasticOld := 0.0)
  {
  }

  /** Away from n = 26 both calculations take the same branch, give the same messages,
      and differ at most in the stochastic values. */
  lemma CorrectedAgrees(name: string, newestFirst: seq<real>)
    requires NonNegative(newestFirst) && |newestFirst| != 26
    ensures var a, b := CalculateMacd(name, newestFirst), CalculateMacdCorrected(name, newestFirst);
      && a.Computed? == b.Computed?
      && (!a.Computed? ==> a == b)
      && (a.Computed? ==>
            a.snapshot.(stochastic := 0.0, stochasticOld := 0.0)
            == b.snapshot.(stochastic := 0.0, stochasticOld := 0.0))
  {
    if |newestFirst| >= 27 {
      CalculateMacdSnapshot(name, newestFirst);
      CorrectedSnapshotAgrees(Reverse(newestFirst));
    }
  }

  /** On a flat series the corrected %K is 0 everywhere: high equals low in every window. */
  lemma CorrectedFlatStochastic(c: seq<real>, p: real)
    requires 14 < |c| && p >= 0.0 && IsConstant(c, p)
    ensures IsConstant(CorrectedStochasticK(c), 0.0)
  {
    var h, l, k := Highest(c, 14), TrueLowest(c, 14), CorrectedStochasticK(c);
    forall i | 0 <= i < |k|
      ensures k[i] == 0.0
    {
      var t := |k| - i;
      var j := |h| - t;
      HighestIsWindowMax(c, 14, j);
      TrueLowestIsWindowMin(c, 14, j);
      assert FromEnd(h, t) == h[j] == p;
      assert FromEnd(l, t) == l[j] == p;
      assert k[i] == FromEnd(k, t);
    }
  }
}

=== FILE: fetcher.dfy ===
/** StockDataFetcher.java without its threads and its network: the SAX handler
    of parseData as a fold over parser events, validateData,
    preCalculateIndicators, and the decisions one worker thread of execute takes
    for each symbol it removes from the shared queue. */
module Fetcher {
  import opened Util
  import opened Text
  import opened Symbols
  import Analysis

  /** The callbacks the SAX parser makes on the handler. */
  datatype SaxEvent =
    | StartTag(qName: string)
    | Characters(text: string)
    | EndTag(qName: string)

  /** The handler's three flags and the list it fills. */
  datatype ParseState = ParseState(closeFlag: bool, highFlag: bool, lowFlag: bool, data: seq<StockData>)

  const Fresh: ParseState := ParseState(false, false, false, [])

  /** Number of start tags whose lower-cased name is "quote". */
  function QuoteCount(events: seq<SaxEvent>): nat
    decreases |events|
  {
    if |events| == 0 then 0
    else
      var last := events[|events| - 1];
      QuoteCount(events[..|events| - 1]) + (if last.StartTag? && Lower(last.qName) == "quote" then 1 else 0)
  }

  /** startElement: every flag is recomputed from the lower-cased name, and a
      "quote" puts a new entry (`blank`, new StockData()) in front of the list. */
  function OnStart(st: ParseState, qName: string, blank: StockData): (r: ParseState)
    ensures r.closeFlag <==> Lower(qName) == "adj_close"
    ensures r.highFlag <==> Lower(qName) == "high"
    ensures r.lowFlag <==> Lower(qName) == "low"
    ensures Lower(qName) == "quote" ==> r.data == [blank] + st.data
    ensures Lower(qName) != "quote" ==> r.data == st.data
  {
    var q := Lower(qName);
    var flagged := st.(closeFlag := q == "adj_close", highFlag := q == "high", lowFlag := q == "low");
    if q == "quote" then flagged.(data := [blank] + st.data) else flagged
  }

  /** characters: the text, read by `valueOf` (Float.valueOf), is stored in the
      Close, High or Low field of entry 0, by the first flag that is set. An empty
      list (IndexOutOfBoundsException) or text that is not a number
      (NumberFormatException) is an exception, here None. */
  function OnCharacters(st: ParseState, text: string, valueOf: string -> Option<real>): (r: Option<ParseState>)
    ensures !st.closeFlag && !st.highFlag && !st.lowFlag ==> r == Some(st)
    ensures (st.closeFlag || st.highFlag || st.lowFlag) ==> (r.Some? <==> |st.data| > 0 && valueOf(text).Some?)
    ensures r.Some? ==> r.value.(data := st.data) == st
    ensures r.Some? ==> |r.value.data| == |st.data|
    ensures r.Some? && |st.data| > 0 ==> r.value.data[1..] == st.data[1..]
    ensures r.Some? && st.closeFlag ==> r.value.data[0] == st.data[0].(close := valueOf(text).value)
    ensures r.Some? && !st.closeFlag && st.highFlag ==> r.value.data[0] == st.data[0].(high := valueOf(text).value)
    ensures r.Some? && !st.closeFlag && !st.highFlag && st.lowFlag ==> r.value.data[0] == st.data[0].(low := valueOf(text).value)
  {
    if !(st.closeFlag || st.highFlag || st.lowFlag) then Some(st)
    else if |st.data| == 0 then None
    else
      match valueOf(text)
      case None => None
      case Some(v) =>
        var head := st.data[0];
        var updated :=
          if st.closeFlag then head.(close := v)
          else if st.highFlag then head.(high := v)
          else head.(low := v);
        Some(st.(data := st.data[0 := updated]))
  }

  /** One event; endElement is not overridden, so an end tag changes nothing. */
  function Step(st: ParseState, e: SaxEvent, valueOf: string -> Option<real>, blank: StockData): Option<ParseState>
  {
    match e
    case StartTag(q) => Some(OnStart(st, q, blank))
    case Characters(t) => OnCharacters(st, t, valueOf)
    case EndTag(_) => Some(st)
  }

  /** The handler after a sequence of events; an exception ends the parse. */
  function ParseEvents(events: seq<SaxEvent>, valueOf: string -> Option<real>, blank: StockData): (r: Option<ParseState>)
    ensures r.Some? ==> |r.value.data| == QuoteCount(events)
    decreases |events|
  {
    if |events| == 0 then Some(Fresh)
    else
      match ParseEvents(events[..|events| - 1], valueOf, blank)
      case None => None
      case Some(st) => Step(st, events[|events| - 1], valueOf, blank)
  }

  /** parseData over the events of one document: the list, or null after any
      exception. */
  function ParseData(events: seq<SaxEvent>, valueOf: string -> Option<real>, blank: StockData): (r: Option<seq<StockData>>)
    ensures r.Some? ==> |r.value| == QuoteCount(events)
  {
    match ParseEvents(events, valueOf, blank)
    case None => None
    case Some(st) => Some(st.data)
  }

  /** The handler callbacks applied in event order. */
  method ParseLoop(events: seq<SaxEvent>, valueOf: string -> Option<real>, blank: StockData)
    returns (data: Option<seq<StockData>>)
    ensures data == ParseData(events, valueOf, blank)
  {
    var st := Fresh;
    var i := 0;
    while i < |events|
      invariant 0 <= i <= |events|
      invariant ParseEvents(events[..i], valueOf, blank) == Some(st)
    {
      assert events[..i + 1][..i] == events[..i];
      var next := Step(st, events[i], valueOf, blank);
      if next.None? {
        NoneStaysNone(events, i + 1, valueOf, blank);
        assert events[..i + 1] == events[..i] + [events[i]];
        return None;
      }
      st := next.value;
      i := i + 1;
    }
    assert events[..i] == events;
    data := Some(st.data);
  }

  /** Once an exception is thrown the parse result is null whatever follows. */
  lemma {:induction false} NoneStaysNone(events: seq<SaxEvent>, k: nat, valueOf: string -> Option<real>, blank: StockData)
    requires k <= |events|
    requires ParseEvents(events[..k], valueOf, blank).None?
    ensures ParseEvents(events, valueOf, blank).None?
    decreases |events| - k
  {
    if k < |events| {
      var pre := events[..k + 1];
      assert pre[..k] == events[..k];
      NoneStaysNone(events, k + 1, valueOf, blank);
    } else {
      assert events[..k] == events;
    }
  }

  // ---------------------------------------------------------------------------
  // The same handler in document order.

  /** A handler that appends each new entry and writes text to the last one. */
  function RefStep(st: ParseState, e: SaxEvent, valueOf: string -> Option<real>, blank: StockData): Option<ParseState>
  {
    match e
    case StartTag(q) =>
      var l := Lower(q);
      var flagged := st.(closeFlag := l == "adj_close", highFlag := l == "high", lowFlag := l == "low");
      Some(if l == "quote" then flagged.(data := st.data + [blank]) else flagged)
    case Characters(t) =>
      if !(st.closeFlag || st.highFlag || st.lowFlag) then Some(st)
      else if |st.data| == 0 then None
      else
        (match valueOf(t)
         case None => None
         case Some(v) =>
           var last := st.data[|st.data| - 1];
           var updated :=
             if st.closeFlag then last.(close := v)
             else if st.highFlag then last.(high := v)
             else last.(low := v);
           Some(st.(data := st.data[|st.data| - 1 := updated])))
    case EndTag(_) => Some(st)
  }

  function RefEvents(events: seq<SaxEvent>, valueOf: string -> Option<real>, blank: StockData): Option<ParseState>
    decreases |events|
  {
    if |events| == 0 then Some(Fresh)
    else
      match RefEvents(events[..|events| - 1], valueOf, blank)
      case None => None
      case Some(st) => RefStep(st, events[|events| - 1], valueOf, blank)
  }

  /** The parser's state is the document-order state with its list reversed. */
  predicate Mirrors(st: ParseState, ref: ParseState)
  {
    st == ref.(data := Reverse(ref.data))
  }

  lemma StepMirrors(st: ParseState, ref: ParseState, e: SaxEvent, valueOf: string -> Option<real>, blank: StockData)
    requires Mirrors(st, ref)
    ensures Step(st, e, valueOf, blank).Some? <==> RefStep(ref, e, valueOf, blank).Some?
    ensures Step(st, e, valueOf, blank).Some? ==>
      Mirrors(Step(st, e, valueOf, blank).value, RefStep(ref, e, valueOf, blank).value)
  {
    match e
    case StartTag(q) =>
      ReverseAppend(ref.data, blank);
    case Characters(t) =>
      if (st.closeFlag || st.highFlag || st.lowFlag) && |st.data| > 0 && valueOf(t).Some? {
        var n := |ref.data|;
        var a := Step(st, e, valueOf, blank).value.data;
        var b := Reverse(RefStep(ref, e, valueOf, blank).value.data);
        assert |a| == |b|;
        forall i | 0 <= i < |a|
          ensures a[i] == b[i]
        {
        }
      }
    case EndTag(_) =>
  }

  /** The two handlers stay mirrored over any event sequence. */
  lemma {:induction false} ParseMirrors(events: seq<SaxEvent>, valueOf: string -> Option<real>, blank: StockData)
    ensures ParseEvents(events, valueOf, blank).Some? <==> RefEvents(events, valueOf, blank).Some?
    ensures ParseEvents(events, valueOf, blank).Some? ==>
      Mirrors(ParseEvents(events, valueOf, blank).value, RefEvents(events, valueOf, blank).value)
    decreases |events|
  {
    if |events| > 0 {
      var init := events[..|events| - 1];
      ParseMirrors(init, valueOf, blank);
      var a, b := ParseEvents(init, valueOf, blank), RefEvents(init, valueOf, blank);
      if a.Some? {
        StepMirrors(a.value, b.value, events[|events| - 1], valueOf, blank);
      }
    }
  }

  /** Each new entry goes in front, so the list is in reverse document order: the
      parse result is the document-order result reversed, and both fail together. */
  lemma ParseIsReversed(events: seq<SaxEvent>, valueOf: string -> Option<real>, blank: StockData)
    ensures ParseData(events, valueOf, blank).Some? <==> RefEvents(events, valueOf, blank).Some?
    ensures ParseData(events, valueOf, blank).Some? ==>
      ParseData(events, valueOf, blank).value == Reverse(RefEvents(events, valueOf, blank).value.data)
  {
    ParseMirrors(events, valueOf, blank);
  }

  /** Appending one event applies one more step. */
  lemma ParseSnoc(events: seq<SaxEvent>, e: SaxEvent, valueOf: string -> Option<real>, blank: StockData)
    ensures ParseEvents(events + [e], valueOf, blank)
      == if ParseEvents(events, valueOf, blank).None? then None
         else Step(ParseEvents(events, valueOf, blank).value, e, valueOf, blank)
  {
    assert (events + [e])[..|events|] == events;
  }

  /** Text for a flagged field before any quote start tag has no entry to go to:
      the whole result is null. */
  lemma FlaggedTextBeforeQuote(tag: string, text: string, valueOf: string -> Option<real>, blank: StockData)
    requires Lower(tag) == "adj_close" || Lower(tag) == "high" || Lower(tag) == "low"
    ensures ParseData([StartTag(tag), Characters(text)], valueOf, blank).None?
  {
    var e1, e2 := StartTag(tag), Characters(text);
    assert "adj_close" != "quote" && "high" != "quote" && "low" != "quote";
    var st := OnStart(Fresh, tag, blank);
    assert st.data == [];
    assert st.closeFlag || st.highFlag || st.lowFlag;
    ParseSnoc([], e1, valueOf, blank);
    assert [] + [e1] == [e1];
    assert ParseEvents([e1], valueOf, blank) == Some(st);
    assert OnCharacters(st, text, valueOf).None?;
    ParseSnoc([e1], e2, valueOf, blank);
    assert [e1] + [e2] == [e1, e2];
  }

  /** The flags are only recomputed at a start tag: text after the end of an
      adj_close element still goes to Close, so text there that Float.valueOf
      refuses (the whitespace between elements) makes the whole result null. */
  lemma TextAfterEndTagStillFlagged(quote: string, close: string, price: string, gap: string,
                                    valueOf: string -> Option<real>, blank: StockData)
    requires Lower(quote) == "quote" && Lower(close) == "adj_close"
    requires valueOf(price).Some? && valueOf(gap).None?
    ensures ParseData([StartTag(quote), StartTag(close), Characters(price), EndTag(close)], valueOf, blank)
      == Some([blank.(close := valueOf(price).value)])
    ensures ParseData([StartTag(quote), StartTag(close), Characters(price), EndTag(close), Characters(gap)], valueOf, blank).None?
  {
    var e1, e2, e3, e4, e5 := StartTag(quote), StartTag(close), Characters(price), EndTag(close), Characters(gap);
    ParseSnoc([], e1, valueOf, blank);
    assert [] + [e1] == [e1];
    assert "quote" != "adj_close" && "quote" != "high" && "quote" != "low";
    assert [blank] + Fresh.data == [blank];
    assert OnStart(Fresh, quote, blank) == ParseState(false, false, false, [blank]);
    assert ParseEvents([e1], valueOf, blank) == Some(ParseState(false, false, false, [blank]));
    ParseSnoc([e1], e2, valueOf, blank);
    assert [e1] + [e2] == [e1, e2];
    assert "adj_close" != "quote" && "adj_close" != "high" && "adj_close" != "low";
    assert ParseEvents([e1, e2], valueOf, blank) == Some(ParseState(true, false, false, [blank]));
    ParseSnoc([e1, e2], e3, valueOf, blank);
    assert [e1, e2] + [e3] == [e1, e2, e3];
    var v := valueOf(price).value;
    assert [blank][0 := blank.(close := v)] == [blank.(close := v)];
    assert ParseEvents([e1, e2, e3], valueOf, blank) == Some(ParseState(true, false, false, [blank.(close := v)]));
    ParseSnoc([e1, e2, e3], e4, valueOf, blank);
    assert [e1, e2, e3] + [e4] == [e1, e2, e3, e4];
    ParseSnoc([e1, e2, e3, e4], e5, valueOf, blank);
    assert [e1, e2, e3, e4] + [e5] == [e1, e2, e3, e4, e5];
  }

  // ---------------------------------------------------------------------------
  // validateData and preCalculateIndicators.

  function Closes(data: seq<StockData>): (c: seq<real>)
    ensures |c| == |data| && forall i :: 0 <= i < |data| ==> c[i] == data[i].close
  {
    seq(|data|, i requires 0 <= i < |data| => data[i].close)
  }

  /** validateData: null and the empty list are refused, and so is any negative
      Close; High and Low are not looked at. */
  method ValidateData(data: Option<seq<StockData>>) returns (ok: bool)
    ensures ok <==> data.Some? && |data.value| > 0 && forall i :: 0 <= i < |data.value| ==> data.value[i].close >= 0.0
  {
    if data.None? {
      return false;
    } else if |data.value| == 0 {
      return false;
    }
    var d := data.value;
    var i := 0;
    while i < |d|
      invariant 0 <= i <= |d|
      invariant forall j :: 0 <= j < i ==> d[j].close >= 0.0
    {
      if d[i].close < 0.0 {
        return false;
      }
      i := i + 1;
    }
    return true;
  }

  predicate Valid(data: Option<seq<StockData>>)
  {
    data.Some? && |data.value| > 0 && forall i :: 0 <= i < |data.value| ==> data.value[i].close >= 0.0
  }

  /** What this validator lets through also passes the closes check of
      calculateMACD, and is never the empty list that check would accept. */
  lemma ValidImpliesClosesValid(data: Option<seq<StockData>>)
    requires Valid(data)
    ensures Analysis.NonNegative(Closes(data.value)) && |Closes(data.value)| > 0
  {
  }

  /** preCalculateIndicators: `size() >= 0` always holds, so the list is always
      attached (after `indicators`, calculateIndicators) and the answer is always true;
      the "could not be found" branch is dead. */
  function PreCalculate(sym: Symbol, data: seq<StockData>, indicators: seq<StockData> -> seq<StockData>): (r: (bool, Symbol))
    ensures r.0
    ensures HasStockData(r.1) && r.1 == sym.(data := r.1.data)
    ensures r.1 == sym.(data := Some(indicators(data)))
  {
    if |data| >= 0 then (true, sym.(data := Some(indicators(data))))
    else (false, sym)
  }

  // ---------------------------------------------------------------------------
  // One worker of execute.

  /** What a worker calls out to: buildURI (null on URISyntaxException), fetchData
      (null on IOException), the SAX parser turning a payload into events (null
      when it throws), Float.valueOf, new StockData(), and calculateIndicators. */
  datatype Env = Env(
    buildUri: string -> Option<string>,
    fetch: string -> Option<string>,
    sax: string -> Option<seq<SaxEvent>>,
    valueOf: string -> Option<real>,
    blank: StockData,
    indicators: seq<StockData> -> seq<StockData>)

  /** parseData on a fetched payload. */
  function ParsePayload(payload: string, env: Env): Option<seq<StockData>>
  {
    match env.sax(payload)
    case None => None
    case Some(events) => ParseData(events, env.valueOf, env.blank)
  }

  /** buildURI and fetchData both succeed and the parsed payload is valid. */
  predicate Fetched(sym: Symbol, env: Env)
  {
    && env.buildUri(sym.name).Some?
    && env.fetch(env.buildUri(sym.name).value).Some?
    && Valid(ParsePayload(env.fetch(env.buildUri(sym.name).value).value, env))
  }

  /** The else branch for a symbol without data: the symbol with its data
      attached, or None where the loop breaks. */
  function Attempt(sym: Symbol, env: Env): (r: Option<Symbol>)
    ensures r.Some? ==> HasStockData(r.value) && r.value.name == sym.name
    ensures r.Some? <==> Fetched(sym, env)
    ensures r.Some? ==> r.value == sym.(data := Some(env.indicators(
      ParsePayload(env.fetch(env.buildUri(sym.name).value).value, env).value)))
  {
    match env.buildUri(sym.name)
    case None => None
    case Some(u) =>
      match env.fetch(u)
      case None => None
      case Some(payload) =>
        var pData := ParsePayload(payload, env);
        if Valid(pData) then Some(PreCalculate(sym, pData.value, env.indicators).1) else None
  }

  /** The symbols handed to publishResult, in order, and the queue left when the
      loop ends. */
  datatype Drained = Drained(published: seq<Symbol>, remaining: seq<Symbol>)

  /** The loop of one worker as written: a symbol that already has data is
      published, falls through, and is published again; a failure breaks out
      without publishing, leaving the rest of the queue. */
  function Drain(queue: seq<Symbol>, env: Env): (r: Drained)
    ensures |r.remaining| < |queue| || queue == []
    ensures |r.remaining| <= |queue| && r.remaining == queue[|queue| - |r.remaining|..]
    decreases |queue|
  {
    if |queue| == 0 then Drained([], [])
    else
      var sym := queue[0];
      if HasStockData(sym) then
        var rest := Drain(queue[1..], env);
        Drained([sym, sym] + rest.published, rest.remaining)
      else
        match Attempt(sym, env)
        case None => Drained([], queue[1..])
        case Some(updated) =>
          var rest := Drain(queue[1..], env);
          Drained([updated] + rest.published, rest.remaining)
  }

  /** The while loop of the worker, with its break. */
  method Worker(queue: seq<Symbol>, env: Env) returns (published: seq<Symbol>, remaining: seq<Symbol>)
    ensures Drained(published, remaining) == Drain(queue, env)
  {
    published := [];
    remaining := queue;
    while |remaining| > 0
      invariant Drain(queue, env) == Drained(published + Drain(remaining, env).published, Drain(remaining, env).remaining)
      decreases |remaining|
    {
      var sym := remaining[0];
      remaining := remaining[1..];
      if HasStockData(sym) {
        published := published + [sym];
      } else {
        var updated := Attempt(sym, env);
        if updated.None? {
          break;
        }
        sym := updated.value;
      }
      published := published + [sym];
    }
  }

  /** A symbol that already has data is published twice in a row. */
  lemma CachedPublishedTwice(queue: seq<Symbol>, env: Env)
    requires |queue| > 0 && HasStockData(queue[0])
    ensures Drain(queue, env).published[..2] == [queue[0], queue[0]]
  {
  }

  /** A failing symbol is published not at all, and the worker stops with the
      rest of the queue untouched. */
  lemma FailureStopsWorker(queue: seq<Symbol>, env: Env)
    requires |queue| > 0 && !HasStockData(queue[0]) && Attempt(queue[0], env).None?
    ensures Drain(queue, env) == Drained([], queue[1..])
  {
  }

  /** Number of symbols that already have data. */
  function CachedCount(queue: seq<Symbol>): nat
    decreases |queue|
  {
    if |queue| == 0 then 0 else (if HasStockData(queue[0]) then 1 else 0) + CachedCount(queue[1..])
  }

  /** Without failures the worker empties the queue and publishes one result per
      symbol plus one more per symbol that already had data. */
  lemma {:induction false} DrainWithoutFailure(queue: seq<Symbol>, env: Env)
    requires forall i :: 0 <= i < |queue| ==> HasStockData(queue[i]) || Attempt(queue[i], env).Some?
    ensures Drain(queue, env).remaining == []
    ensures |Drain(queue, env).published| == |queue| + CachedCount(queue)
    decreases |queue|
  {
    if |queue| > 0 {
      assert forall i :: 0 <= i < |queue| - 1 ==> queue[1..][i] == queue[i + 1];
      DrainWithoutFailure(queue[1..], env);
    }
  }

  // ---------------------------------------------------------------------------
  // The corrected worker.

  /** What the corrected loop publishes for one symbol: the symbol itself when it
      has data or the attempt fails (so the listener can retry it), else the
      updated symbol. */
  function Result(sym: Symbol, env: Env): (r: Symbol)
    ensures r.name == sym.name
    ensures HasStockData(sym) ==> r == sym
    ensures !HasStockData(sym) && Attempt(sym, env).None? ==> r == sym
    ensures HasStockData(r) <==> HasStockData(sym) || Attempt(sym, env).Some?
  {
    if HasStockData(sym) then sym
    else match Attempt(sym, env)
      case None => sym
      case Some(updated) => updated
  }

  /** The corrected loop: every symbol is published exactly once, a failure is
      published without data, and the loop goes on to the next symbol. */
  function DrainCorrected(queue: seq<Symbol>, env: Env): (r: Drained)
    ensures r.remaining == []
    ensures |r.published| == |queue|
    ensures forall i :: 0 <= i < |queue| ==> r.published[i] == Result(queue[i], env)
    decreases |queue|
  {
    if |queue| == 0 then Drained([], [])
    else
      var rest := DrainCorrected(queue[1..], env);
      Drained([Result(queue[0], env)] + rest.published, [])
  }

  /** The corrected loop publishes the queue's symbols once each, in queue order. */
  lemma CorrectedPublishesOnce(queue: seq<Symbol>, env: Env)
    ensures |DrainCorrected(queue, env).published| == |queue|
    ensures forall i :: 0 <= i < |queue| ==> DrainCorrected(queue, env).published[i].name == queue[i].name
  {
  }

  /** On a queue without cached symbols or failures both loops publish the same
      list. */
  lemma {:induction false} CorrectedAgreesWithoutCacheOrFailure(queue: seq<Symbol>, env: Env)
    requires forall i :: 0 <= i < |queue| ==> !HasStockData(queue[i]) && Attempt(queue[i], env).Some?
    ensures Drain(queue, env) == DrainCorrected(queue, env)
    decreases |queue|
  {
    if |queue| > 0 {
      assert forall i :: 0 <= i < |queue| - 1 ==> queue[1..][i] == queue[i + 1];
      CorrectedAgreesWithoutCacheOrFailure(queue[1..], env);
    }
  }

  /** The corrected loop hands a failed symbol to the listener without data; that
      is the case the listener's retry (hasStockData false and doRetry) waits for. */
  lemma FailedSymbolReachesListener(queue: seq<Symbol>, env: Env)
    requires |queue| > 0 && !HasStockData(queue[0]) && Attempt(queue[0], env).None?
    ensures DrainCorrected(queue, env).published[0] == queue[0]
    ensures !HasStockData(DrainCorrected(queue, env).published[0])
    ensures Drain(queue, env).published == []
  {
  }
}

=== FILE: groups.dfy ===
/** Group.java: a named, ordered list of symbols with lookup by name and by
    position, append, remove-at-position, and the XML constructor/putAttributes
    pair. */
module Groups {
  import opened Util
  import opened Xml
  import opened Symbols

  datatype Group = Group(name: string, symbols: seq<Symbol>)

  /** new Group(name): no symbols yet. */
  function NewGroup(name: string): Group
  {
    Group(name, [])
  }

  /** toString. */
  function GroupToString(g: Group): string { g.name }

  /** equals(Object) for a String argument: the argument is compared with the name. */
  function GroupEqualsName(g: Group, other: string): (r: bool)
    ensures r <==> GroupToString(g) == other
  {
    g.name == other
  }

  /** No symbol before position i is called name. */
  predicate NoneNamedBefore(symbols: seq<Symbol>, name: string, i: int)
    requires 0 <= i <= |symbols|
  {
    forall j :: 0 <= j < i ==> symbols[j].name != name
  }

  /** Position i holds the first symbol called name. */
  predicate FirstNamedAt(symbols: seq<Symbol>, name: string, i: int)
  {
    0 <= i < |symbols| && symbols[i].name == name && NoneNamedBefore(symbols, name, i)
  }

  /** getSymbol(String): the first symbol with that name, or null. */
  function SymbolNamed(g: Group, name: string): (r: Option<Symbol>)
    ensures r.None? <==> forall j :: 0 <= j < |g.symbols| ==> g.symbols[j].name != name
    ensures r.Some? ==> exists i :: FirstNamedAt(g.symbols, name, i) && g.symbols[i] == r.value
  {
    FirstNamed(g.symbols, name, 0)
  }

  /** The for-each loop of getSymbol(String), from position i on. */
  function FirstNamed(symbols: seq<Symbol>, name: string, i: nat): (r: Option<Symbol>)
    requires i <= |symbols|
    requires NoneNamedBefore(symbols, name, i)
    ensures r.None? <==> forall j :: 0 <= j < |symbols| ==> symbols[j].name != name
    ensures r.Some? ==> exists k :: i <= k && FirstNamedAt(symbols, name, k) && symbols[k] == r.value
    decreases |symbols| - i
  {
    if i == |symbols| then None
    else if symbols[i].name == name then Some(symbols[i])
    else FirstNamed(symbols, name, i + 1)
  }

  /** getSymbol(int): the symbol at i, or null past the end. A negative index is
      not guarded in the source (List.get throws), so i is a nat. */
  function SymbolAt(g: Group, i: nat): (r: Option<Symbol>)
    ensures i < |g.symbols| ==> r == Some(g.symbols[i])
    ensures i >= |g.symbols| ==> r == None
  {
    if |g.symbols| > i then Some(g.symbols[i]) else None
  }

  /** addSymbol(name, valuation): appends one fresh symbol and returns it. */
  function AddSymbol(g: Group, name: string, valuation: Option<real>): (r: (Group, Symbol))
    ensures r.0.name == g.name
    ensures |r.0.symbols| == |g.symbols| + 1
    ensures r.0.symbols[..|g.symbols|] == g.symbols
    ensures r.0.symbols[|g.symbols|] == r.1
    ensures r.1.name == name && r.1.valuation == valuation && !HasStockData(r.1)
  {
    var s := NewSymbol(name, valuation);
    (g.(symbols := g.symbols + [s]), s)
  }

  /** removeSymbol(int): removes and returns the symbol at i, keeping the order of
      the rest; past the end it returns null and changes nothing. */
  function RemoveSymbol(g: Group, i: nat): (r: (Group, Option<Symbol>))
    ensures i >= |g.symbols| ==> r == (g, None)
    ensures i < |g.symbols| ==>
      && r.1 == Some(g.symbols[i])
      && r.0.name == g.name
      && |r.0.symbols| == |g.symbols| - 1
      && (forall j :: 0 <= j < i ==> r.0.symbols[j] == g.symbols[j])
      && (forall j :: i <= j < |r.0.symbols| ==> r.0.symbols[j] == g.symbols[j + 1])
  {
    if |g.symbols| > i then
      (g.(symbols := g.symbols[..i] + g.symbols[i + 1..]), Some(g.symbols[i]))
    else (g, None)
  }

  /** Putting the removed symbol back at its position restores the group. */
  lemma RemoveThenInsert(g: Group, i: nat)
    requires i < |g.symbols|
    ensures var (h, s) := RemoveSymbol(g, i);
      h.(symbols := h.symbols[..i] + [s.value] + h.symbols[i..]) == g
  {
    var (h, s) := RemoveSymbol(g, i);
    assert h.symbols[..i] + [s.value] + h.symbols[i..] == g.symbols;
  }

  /** Adding then looking up by position finds the new symbol at the end. */
  lemma AddThenLookup(g: Group, name: string, valuation: Option<real>)
    ensures var (h, s) := AddSymbol(g, name, valuation);
      SymbolAt(h, |g.symbols|) == Some(s)
      && (SymbolNamed(g, name).None? ==> SymbolNamed(h, name) == Some(s))
      && (SymbolNamed(g, name).Some? ==> SymbolNamed(h, name) == SymbolNamed(g, name))
  {
    var (h, s) := AddSymbol(g, name, valuation);
    if SymbolNamed(g, name).Some? {
      var i :| FirstNamedAt(g.symbols, name, i) && g.symbols[i] == SymbolNamed(g, name).value;
      FirstNamedFrom(h.symbols, name, i);
    } else {
      FirstNamedFrom(h.symbols, name, |g.symbols|);
    }
  }

  /** The first symbol called name is found at the first position holding one. */
  lemma FirstNamedFrom(symbols: seq<Symbol>, name: string, i: nat)
    requires i < |symbols| && symbols[i].name == name && NoneNamedBefore(symbols, name, i)
    ensures FirstNamed(symbols, name, 0) == Some(symbols[i])
  {
    var r := FirstNamed(symbols, name, 0);
    assert r.Some?;
    var k :| 0 <= k && FirstNamedAt(symbols, name, k) && symbols[k] == r.value;
    assert 0 <= k < |symbols| && NoneNamedBefore(symbols, name, k);
    assert forall j :: 0 <= j < k ==> symbols[j].name != name;
    assert forall j :: 0 <= j < i ==> symbols[j].name != name;
    assert k == i;
  }

  // ---------------------------------------------------------------------------
  // The XML constructor and putAttributes.

  const GroupTag: string := "Group"
  const SymbolsTag: string := "Symbols"

  /** The Symbols child putAttributes writes: one child per symbol, in list order. */
  function SymbolsElement(symbols: seq<Symbol>, show: real -> string): (e: Element)
    ensures e.tag == SymbolsTag && |e.children| == |symbols|
    ensures forall i :: 0 <= i < |symbols| ==> e.children[i] == ToElement(symbols[i], show)
    decreases |symbols|
  {
    if |symbols| == 0 then NewElement(SymbolsTag)
    else AddChild(SymbolsElement(symbols[..|symbols| - 1], show), ToElement(symbols[|symbols| - 1], show))
  }

  /** toXMLElement with putAttributes: the name attribute and a single Symbols child. */
  function GroupToElement(g: Group, show: real -> string): (e: Element)
    ensures GetAttribute(e, "name") == Some(g.name)
    ensures e.children == [SymbolsElement(g.symbols, show)]
  {
    AddChild(AddAttribute(NewElement(GroupTag), "name", g.name), SymbolsElement(g.symbols, show))
  }

  /** The loop of the XML constructor: one symbol per child, in child order; a
      child whose valuation does not parse aborts the construction. */
  function SymbolsFrom(children: seq<Element>, valueOf: string -> Option<real>): (r: Option<seq<Symbol>>)
    ensures r.Some? ==> |r.value| == |children|
    ensures r.Some? <==> forall i :: 0 <= i < |children| ==> FromElement(children[i], valueOf).Some?
    ensures r.Some? ==> forall i :: 0 <= i < |children| ==> Some(r.value[i]) == FromElement(children[i], valueOf)
    decreases |children|
  {
    if |children| == 0 then Some([])
    else
      match SymbolsFrom(children[..|children| - 1], valueOf)
      case None => None
      case Some(init) =>
        match FromElement(children[|children| - 1], valueOf)
        case None => None
        case Some(s) => Some(init + [s])
  }

  /** new Group(XMLElement): the name attribute (default "") and, when there is a
      Symbols child, one symbol per child of it. */
  function GroupFromElement(e: Element, valueOf: string -> Option<real>): (r: Option<Group>)
    ensures r.Some? ==> r.value.name == GetAttributeOr(e, "name", "")
    ensures GetElement(e, SymbolsTag).None? ==> r == Some(NewGroup(GetAttributeOr(e, "name", "")))
    ensures GetElement(e, SymbolsTag).Some? ==>
      && (r.Some? <==> SymbolsFrom(GetElement(e, SymbolsTag).value.children, valueOf).Some?)
      && (r.Some? ==> r.value.symbols == SymbolsFrom(GetElement(e, SymbolsTag).value.children, valueOf).value)
  {
    var name := GetAttributeOr(e, "name", "");
    match GetElement(e, SymbolsTag)
    case None => Some(NewGroup(name))
    case Some(symbols) =>
      match SymbolsFrom(symbols.children, valueOf)
      case None => None
      case Some(list) => Some(Group(name, list))
  }

  /** The group a save and load cycle gives back: same name, same symbols in the
      same order, each without stock data and with a fresh counter. */
  function Reloaded(g: Group): (r: Group)
    ensures r.name == g.name && |r.symbols| == |g.symbols|
    ensures forall i :: 0 <= i < |g.symbols| ==>
      r.symbols[i] == g.symbols[i].(data := None, retries := InitialRetries)
  {
    Group(g.name, seq(|g.symbols|, i requires 0 <= i < |g.symbols| => g.symbols[i].(data := None, retries := InitialRetries)))
  }

  /** Every valuation of the group reads back as itself. */
  predicate ValuationsRoundTrip(g: Group, show: real -> string, valueOf: string -> Option<real>)
  {
    forall i :: 0 <= i < |g.symbols| && g.symbols[i].valuation.Some? ==>
      valueOf(show(g.symbols[i].valuation.value)) == Some(g.symbols[i].valuation.value)
  }

  /** Writing a group and constructing it back keeps its name and the order of its
      symbols. */
  lemma GroupRoundTrip(g: Group, show: real -> string, valueOf: string -> Option<real>)
    requires ValuationsRoundTrip(g, show, valueOf)
    ensures GroupFromElement(GroupToElement(g, show), valueOf) == Some(Reloaded(g))
  {
    var e := GroupToElement(g, show);
    var se := SymbolsElement(g.symbols, show);
    assert GetAttributeOr(e, "name", "") == g.name;
    assert e.children[0].tag == SymbolsTag;
    assert GetElement(e, SymbolsTag) == Some(se);
    forall i | 0 <= i < |g.symbols|
      ensures FromElement(se.children[i], valueOf) == Some(Reloaded(g).symbols[i])
    {
      SymbolRoundTrip(g.symbols[i], show, valueOf);
    }
    var r := SymbolsFrom(se.children, valueOf);
    assert r.Some?;
    assert r.value == Reloaded(g).symbols;
  }
}

=== FILE: indicators.dfy ===
/** The list arithmetic of CalculateTechnicalAnalysis.java over closing prices
    (Java float, modelled as real). Each indicator is given once as a function;
    the methods Calc* follow the Java loops and are proved to compute it. */
module Indicators {
  import opened Util

  /** Left-to-right sum, the order of the Java accumulation loop. */
  function Sum(s: seq<real>): real
    decreases |s|
  {
    if |s| == 0 then 0.0 else Sum(s[..|s| - 1]) + s[|s| - 1]
  }

  /** Width of the calcSMA window: `days`, cut down to what is left after `start`. */
  function SmaWidth(n: int, start: int, days: int): int
  {
    if n < start + days then n - start else days
  }

  /** calcSMA: mean of the window of `days` values at `start`; the window shrinks
      instead of running past the end. */
  function Sma(v: seq<real>, start: int, days: int): real
    requires 0 <= start < |v| && 1 <= days
  {
    var w := SmaWidth(|v|, start, days);
    Sum(v[start..start + w]) / (w as real)
  }

  /** A window that fits is not shrunk. */
  lemma SmaFullWindow(v: seq<real>, start: int, days: int)
    requires 0 <= start && 1 <= days && start + days <= |v|
    ensures Sma(v, start, days) == Sum(v[start..start + days]) / (days as real)
  {
  }

  /** The EMA multiplier 2 / (days + 1). */
  function Weight(days: int): real
    requires 1 <= days
  {
    2.0 / ((days + 1) as real)
  }

  /** One EMA step: the new price weighted by Weight(days), the previous average by the rest. */
  function EmaStep(price: real, prev: real, days: int): real
    requires 1 <= days
  {
    price * Weight(days) + prev * (1.0 - Weight(days))
  }

  /** calcEMA: seeded with the SMA of the first `days` values, then one value per
      later element, each mixing that element with the previous average. */
  function Ema(v: seq<real>, days: int): (r: seq<real>)
    requires 1 <= days && 1 <= |v|
    ensures |r| == 1 + Max0(|v| - days)
    ensures r[0] == Sma(v, 0, days)
    ensures forall j :: 1 <= j < |r| ==> r[j] == EmaStep(v[days + j - 1], r[j - 1], days)
    decreases |v|
  {
    if |v| <= days then [Sma(v, 0, days)]
    else
      var p := Ema(v[..|v| - 1], days);
      SmaPrefix(v, days);
      p + [EmaStep(v[|v| - 1], p[|p| - 1], days)]
  }

  /** Dropping elements after the first `days` does not change the seed average. */
  lemma SmaPrefix(v: seq<real>, days: int)
    requires 1 <= days < |v|
    ensures Sma(v[..|v| - 1], 0, days) == Sma(v, 0, days)
    ensures Sma(v[..days], 0, days) == Sma(v, 0, days)
  {
    assert v[..|v| - 1][0..days] == v[0..days];
    assert v[..days][0..days] == v[0..days];
  }

  /** The i-th element counted from the end (1 is the last). */
  function FromEnd(s: seq<real>, i: int): real
    requires 1 <= i <= |s|
  {
    s[|s| - i]
  }

  /** diff: element-wise LHS - RHS over the common tail; the result is as long as
      the shorter list and pairs elements counted from the end. */
  function Diff(l: seq<real>, r: seq<real>): (d: seq<real>)
    ensures |d| == Min(|l|, |r|)
    ensures forall i :: 1 <= i <= |d| ==> FromEnd(d, i) == FromEnd(l, i) - FromEnd(r, i)
  {
    var m := Min(|l|, |r|);
    seq(m, j requires 0 <= j < m => FromEnd(l, m - j) - FromEnd(r, m - j))
  }

  /** Running maximum of a seed and the elements of s, in order. */
  function FoldMax(seed: real, s: seq<real>): (r: real)
    ensures seed <= r
    ensures forall k :: 0 <= k < |s| ==> s[k] <= r
    ensures r == seed || r in s
    decreases |s|
  {
    if |s| == 0 then seed else MaxReal(FoldMax(seed, s[..|s| - 1]), s[|s| - 1])
  }

  /** Running minimum of a seed and the elements of s, in order. */
  function FoldMin(seed: real, s: seq<real>): (r: real)
    ensures r <= seed
    ensures forall k :: 0 <= k < |s| ==> r <= s[k]
    ensures r == seed || r in s
    decreases |s|
  {
    if |s| == 0 then seed else MinReal(FoldMin(seed, s[..|s| - 1]), s[|s| - 1])
  }

  /** calcHighest: for every start i < |v| - days, the maximum of -1 and v[i..i+days].
      Every window ends before the last element. */
  function Highest(v: seq<real>, days: int): (h: seq<real>)
    requires 0 <= days
    ensures |h| == Max0(|v| - days)
  {
    seq(Max0(|v| - days), i requires 0 <= i < Max0(|v| - days) => FoldMax(-1.0, v[i..i + days]))
  }

  /** calcLowest as written: the running minimum starts from -1, like calcHighest. */
  function Lowest(v: seq<real>, days: int): (h: seq<real>)
    requires 0 <= days
    ensures |h| == Max0(|v| - days)
  {
    seq(Max0(|v| - days), i requires 0 <= i < Max0(|v| - days) => FoldMin(-1.0, v[i..i + days]))
  }

  /** Corrected calcLowest: the running minimum starts from the window's first value. */
  function TrueLowest(v: seq<real>, days: int): (h: seq<real>)
    requires 1 <= days
    ensures |h| == Max0(|v| - days)
  {
    seq(Max0(|v| - days), i requires 0 <= i < Max0(|v| - days) => FoldMin(v[i], v[i + 1..i + days]))
  }

  /** For non-negative prices every value calcLowest produces is -1: the seed is
      below every price. */
  lemma LowestIsMinusOne(v: seq<real>, days: int)
    requires 0 <= days
    requires forall i :: 0 <= i < |v| ==> v[i] >= 0.0
    ensures forall i :: 0 <= i < |Lowest(v, days)| ==> Lowest(v, days)[i] == -1.0
  {
    forall i | 0 <= i < |Lowest(v, days)|
      ensures Lowest(v, days)[i] == -1.0
    {
      var w := v[i..i + days];
      var r := FoldMin(-1.0, w);
      assert Lowest(v, days)[i] == r;
      assert forall k :: 0 <= k < |w| ==> w[k] == v[i + k];
      assert r !in w;
    }
  }

  /** The corrected window minimum is the smallest price of the window and is one of them. */
  lemma TrueLowestIsWindowMin(v: seq<real>, days: int, i: int)
    requires 1 <= days && 0 <= i < |TrueLowest(v, days)|
    ensures forall j :: i <= j < i + days ==> TrueLowest(v, days)[i] <= v[j]
    ensures exists j :: i <= j < i + days && TrueLowest(v, days)[i] == v[j]
  {
    var w := v[i + 1..i + days];
    var r := FoldMin(v[i], w);
    assert TrueLowest(v, days)[i] == r;
    forall j | i < j < i + days
      ensures r <= v[j]
    {
      assert w[j - i - 1] == v[j];
    }
    if r == v[i] {
      assert i <= i < i + days && r == v[i];
    } else {
      var k :| 0 <= k < |w| && w[k] == r;
      assert w[k] == v[i + 1 + k];
    }
  }

  /** On non-negative prices the -1 seed of calcHighest never wins: each value is
      a price of its window. */
  lemma HighestIsWindowMax(v: seq<real>, days: int, i: int)
    requires 1 <= days && 0 <= i < |Highest(v, days)|
    requires forall j :: 0 <= j < |v| ==> v[j] >= 0.0
    ensures forall j :: i <= j < i + days ==> v[j] <= Highest(v, days)[i]
    ensures exists j :: i <= j < i + days && Highest(v, days)[i] == v[j]
  {
    var w := v[i..i + days];
    var r := FoldMax(-1.0, w);
    assert Highest(v, days)[i] == r;
    forall j | i <= j < i + days
      ensures v[j] <= r
    {
      assert w[j - i] == v[j];
    }
    assert w[0] == v[i] && w[0] <= r;
    var k :| 0 <= k < |w| && w[k] == r;
    assert w[k] == v[i + k];
  }

  function Min3(a: int, b: int, c: int): int { Min(Min(a, b), c) }

  /** Every high/low pair that calcPercentile divides by differs. */
  predicate RangesNonZero(highs: seq<real>, lows: seq<real>, closes: seq<real>)
  {
    forall t :: 1 <= t <= Min3(|highs|, |lows|, |closes|) ==> FromEnd(highs, t) != FromEnd(lows, t)
  }

  /** Where close sits between low and high, in percent. */
  function PercentOf(close: real, low: real, high: real): real
    requires high != low
  {
    (close - low) / (high - low) * 100.0
  }

  /** calcPercentile (%K): the three lists aligned at their tails; the result is as
      long as the shortest and pairs elements counted from the end. */
  function Percentile(highs: seq<real>, lows: seq<real>, closes: seq<real>): (k: seq<real>)
    requires RangesNonZero(highs, lows, closes)
    ensures |k| == Min3(|highs|, |lows|, |closes|)
    ensures forall t :: 1 <= t <= |k| ==>
      FromEnd(k, t) == PercentOf(FromEnd(closes, t), FromEnd(lows, t), FromEnd(highs, t))
  {
    var m := Min3(|highs|, |lows|, |closes|);
    seq(m, i requires 0 <= i < m =>
      PercentOf(FromEnd(closes, m - i), FromEnd(lows, m - i), FromEnd(highs, m - i)))
  }

  /** %K with a division-by-zero guard: 0 wherever high equals low. */
  function GuardedPercent(close: real, low: real, high: real): real
  {
    if high == low then 0.0 else PercentOf(close, low, high)
  }

  /** The corrected %K: calcPercentile with the zero-range guard. */
  function GuardedPercentile(highs: seq<real>, lows: seq<real>, closes: seq<real>): (k: seq<real>)
    ensures |k| == Min3(|highs|, |lows|, |closes|)
    ensures forall t :: 1 <= t <= |k| ==>
      FromEnd(k, t) == GuardedPercent(FromEnd(closes, t), FromEnd(lows, t), FromEnd(highs, t))
  {
    var m := Min3(|highs|, |lows|, |closes|);
    seq(m, i requires 0 <= i < m =>
      GuardedPercent(FromEnd(closes, m - i), FromEnd(lows, m - i), FromEnd(highs, m - i)))
  }

  /** Where no range is zero the guard never fires and both definitions agree. */
  lemma GuardedAgrees(highs: seq<real>, lows: seq<real>, closes: seq<real>)
    requires RangesNonZero(highs, lows, closes)
    ensures GuardedPercentile(highs, lows, closes) == Percentile(highs, lows, closes)
  {
    var g, p := GuardedPercentile(highs, lows, closes), Percentile(highs, lows, closes);
    var m := |g|;
    forall j | 0 <= j < m
      ensures g[j] == p[j]
    {
      assert g[j] == FromEnd(g, m - j) && p[j] == FromEnd(p, m - j);
    }
  }

  // ---------------------------------------------------------------------------
  // The Java loops, proved to compute the definitions above.

  /** The loop of calcSMA. */
  method CalcSma(v: seq<real>, start: int, days: int) returns (r: real)
    requires 0 <= start < |v| && 1 <= days
    ensures r == Sma(v, start, days)
  {
    var d := days;
    if |v| < start + d {
      d := |v| - start;
    }
    var res := 0.0;
    var i := start;
    while i < start + d
      invariant start <= i <= start + d
      invariant res == Sum(v[start..i])
    {
      assert v[start..i + 1][..i - start] == v[start..i];
      assert Sum(v[start..i + 1]) == Sum(v[start..i]) + v[i];
      res := res + v[i];
      i := i + 1;
    }
    assert d == SmaWidth(|v|, start, days) && i == start + d;
    r := res / (d as real);
  }

  /** The loop of calcEMA. */
  method CalcEma(v: seq<real>, days: int) returns (ema: seq<real>)
    requires 1 <= days && 1 <= |v|
    ensures ema == Ema(v, days)
  {
    var seed := CalcSma(v, 0, days);
    ema := [seed];
    var multiplier := 2.0 / ((days + 1) as real);
    if |v| <= days {
      return;
    }
    SmaPrefix(v, days);
    var i := days;
    while i < |v|
      invariant days <= i <= |v|
      invariant ema == Ema(v[..i], days)
    {
      assert v[..i + 1][..i] == v[..i];
      assert multiplier == Weight(days);
      var prev := ema[|ema| - 1];
      var next := v[i] * multiplier + prev * (1.0 - multiplier);
      assert next == EmaStep(v[i], prev, days);
      assert Ema(v[..i + 1], days) == Ema(v[..i], days) + [EmaStep(v[i], prev, days)];
      ema := ema + [next];
      i := i + 1;
    }
    assert v[..i] == v;
  }

  /** The two loops of diff: fill with zeros, then write from the back. */
  method DiffLists(lhs: seq<real>, rhs: seq<real>) returns (res: seq<real>)
    ensures res == Diff(lhs, rhs)
  {
    var smallest := Min(|lhs|, |rhs|);
    res := [];
    var i := 0;
    while i < smallest
      invariant 0 <= i <= smallest
      invariant |res| == i
    {
      res := res + [0.0];
      i := i + 1;
    }
    i := 1;
    while i <= smallest
      invariant 1 <= i <= smallest + 1
      invariant |res| == smallest
      invariant forall k :: 1 <= k < i ==> FromEnd(res, k) == FromEnd(lhs, k) - FromEnd(rhs, k)
    {
      res := res[smallest - i := lhs[|lhs| - i] - rhs[|rhs| - i]];
      i := i + 1;
    }
    var d := Diff(lhs, rhs);
    forall j | 0 <= j < smallest
      ensures res[j] == d[j]
    {
      assert res[j] == FromEnd(res, smallest - j) && d[j] == FromEnd(d, smallest - j);
    }
  }

  /** The inner loop of calcHighest: the running maximum over v[i..i+days], from -1. */
  method WindowMax(v: seq<real>, i: int, days: int) returns (res: real)
    requires 0 <= i && 0 <= days && i + days <= |v|
    ensures res == FoldMax(-1.0, v[i..i + days])
  {
    res := -1.0;
    var j := i;
    while j < i + days
      invariant i <= j <= i + days
      invariant res == FoldMax(-1.0, v[i..j])
    {
      assert v[i..j + 1][..j - i] == v[i..j];
      res := MaxReal(res, v[j]);
      j := j + 1;
    }
  }

  /** The inner loop of calcLowest: the running minimum over v[i..i+days], from -1. */
  method WindowMin(v: seq<real>, i: int, days: int) returns (res: real)
    requires 0 <= i && 0 <= days && i + days <= |v|
    ensures res == FoldMin(-1.0, v[i..i + days])
  {
    res := -1.0;
    var j := i;
    while j < i + days
      invariant i <= j <= i + days
      invariant res == FoldMin(-1.0, v[i..j])
    {
      assert v[i..j + 1][..j - i] == v[i..j];
      res := MinReal(res, v[j]);
      j := j + 1;
    }
  }

  /** The nested loops of calcHighest. */
  method CalcHighest(v: seq<real>, days: int) returns (high: seq<real>)
    requires 0 <= days
    ensures high == Highest(v, days)
  {
    high := [];
    var i := 0;
    while i < |v| - days
      invariant 0 <= i <= Max0(|v| - days)
      invariant high == Highest(v, days)[..i]
    {
      var res := WindowMax(v, i, days);
      high := high + [res];
      i := i + 1;
    }
    assert Highest(v, days)[..i] == Highest(v, days);
  }

  /** The nested loops of calcLowest, seed -1 included. */
  method CalcLowest(v: seq<real>, days: int) returns (low: seq<real>)
    requires 0 <= days
    ensures low == Lowest(v, days)
  {
    low := [];
    var i := 0;
    while i < |v| - days
      invariant 0 <= i <= Max0(|v| - days)
      invariant low == Lowest(v, days)[..i]
    {
      var res := WindowMin(v, i, days);
      low := low + [res];
      i := i + 1;
    }
    assert Lowest(v, days)[..i] == Lowest(v, days);
  }

  /** The loop of calcPercentile with its three offsets. */
  method CalcPercentile(highs: seq<real>, lows: seq<real>, closes: seq<real>) returns (k: seq<real>)
    requires RangesNonZero(highs, lows, closes)
    ensures k == Percentile(highs, lows, closes)
  {
    var shortest := Min3(|highs|, |lows|, |closes|);
    var highOffset := |highs| - shortest;
    var lowOffset := |lows| - shortest;
    var closeOffset := |closes| - shortest;
    k := [];
    var i := 0;
    while i < shortest
      invariant 0 <= i <= shortest
      invariant |k| == i
      invariant forall j :: 0 <= j < i ==>
        k[j] == PercentOf(FromEnd(closes, shortest - j), FromEnd(lows, shortest - j), FromEnd(highs, shortest - j))
    {
      assert FromEnd(highs, shortest - i) != FromEnd(lows, shortest - i);
      assert closes[i + closeOffset] == FromEnd(closes, shortest - i);
      assert lows[i + lowOffset] == FromEnd(lows, shortest - i);
      assert highs[i + highOffset] == FromEnd(highs, shortest - i);
      k := k + [(closes[i + closeOffset] - lows[i + lowOffset]) / (highs[i + highOffset] - lows[i + lowOffset]) * 100.0];
      i := i + 1;
    }
    var p := Percentile(highs, lows, closes);
    forall j | 0 <= j < shortest
      ensures k[j] == p[j]
    {
      assert p[j] == FromEnd(p, shortest - j);
    }
  }

  // ---------------------------------------------------------------------------
  // Constant series.

  predicate IsConstant(v: seq<real>, c: real)
  {
    forall i :: 0 <= i < |v| ==> v[i] == c
  }

  lemma {:induction false} SumConstant(v: seq<real>, c: real)
    requires IsConstant(v, c)
    ensures Sum(v) == (|v| as real) * c
    decreases |v|
  {
    if |v| > 0 {
      SumConstant(v[..|v| - 1], c);
    }
  }

  /** The SMA of a constant series is that constant. */
  lemma SmaConstant(v: seq<real>, start: int, days: int, c: real)
    requires 0 <= start < |v| && 1 <= days
    requires IsConstant(v, c)
    ensures Sma(v, start, days) == c
  {
    var w := SmaWidth(|v|, start, days);
    SumConstant(v[start..start + w], c);
  }

  /** Every EMA value of a constant series is that constant. */
  lemma {:induction false} EmaConstant(v: seq<real>, days: int, c: real)
    requires 1 <= days && 1 <= |v|
    requires IsConstant(v, c)
    ensures IsConstant(Ema(v, days), c)
    decreases |v|
  {
    SmaConstant(v, 0, days, c);
    if |v| > days {
      EmaConstant(v[..|v| - 1], days, c);
      var k := Weight(days);
      assert EmaStep(c, c, days) == c * k + c * (1.0 - k) == c;
    }
  }

  /** The sum is bounded by the window's extremes times its length. */
  lemma {:induction false} SumBounds(s: seq<real>, lo: real, hi: real)
    requires forall i :: 0 <= i < |s| ==> lo <= s[i] <= hi
    ensures (|s| as real) * lo <= Sum(s) <= (|s| as real) * hi
    decreases |s|
  {
    if |s| > 0 {
      var init := s[..|s| - 1];
      var last := s[|s| - 1];
      forall i | 0 <= i < |init|
        ensures lo <= init[i] <= hi
      {
        assert init[i] == s[i];
      }
      SumBounds(init, lo, hi);
      var m := |init| as real;
      var a := Sum(init);
      assert m * lo <= a <= m * hi;
      assert lo <= last <= hi;
      assert Sum(s) == a + last;
      assert m * lo + lo == (m + 1.0) * lo;
      assert m * hi + hi == (m + 1.0) * hi;
      assert (m + 1.0) * lo <= a + last <= (m + 1.0) * hi;
      assert |s| as real == m + 1.0;
    }
  }

  /** The SMA lies between any lower and upper bound of its window's prices. */
  lemma SmaBetween(v: seq<real>, start: int, days: int, lo: real, hi: real)
    requires 0 <= start < |v| && 1 <= days
    requires forall i :: start <= i < start + SmaWidth(|v|, start, days) ==> lo <= v[i] <= hi
    ensures lo <= Sma(v, start, days) <= hi
  {
    var w := SmaWidth(|v|, start, days);
    var s := v[start..start + w];
    forall i | 0 <= i < |s|
      ensures lo <= s[i] <= hi
    {
      assert s[i] == v[start + i];
    }
    SumBounds(s, lo, hi);
    DivBounds(Sum(s), w as real, lo, hi);
  }

  lemma DivBounds(a: real, w: real, lo: real, hi: real)
    requires w > 0.0 && w * lo <= a <= w * hi
    ensures lo <= a / w <= hi
  {
  }
}

=== FILE: prefs.dfy ===
/** The legacy key/value store of DataController: the SharedPreferences the
    old "symbols.data" file is copied into line by line (loadFromFile_1), and
    the typed getters load_1 reads it back with. */
module Prefs {
  import opened Util
  import opened Text

  /** A stored preference: putInt or putString. */
  datatype Pref = IntPref(i: int) | StringPref(s: string)

  type PrefMap = map<string, Pref>

  /** getInt(key, default): the default when absent; a value stored as a string
      makes the getter throw ClassCastException, here None. */
  function GetInt(p: PrefMap, key: string, default: int): (r: Option<int>)
    ensures key !in p ==> r == Some(default)
    ensures key in p ==> (r.Some? <==> p[key].IntPref?)
    ensures key in p && p[key].IntPref? ==> r == Some(p[key].i)
  {
    if key !in p then Some(default)
    else match p[key]
      case IntPref(v) => Some(v)
      case StringPref(_) => None
  }

  /** getString(key, default), with the same ClassCastException for an int. */
  function GetString(p: PrefMap, key: string, default: string): (r: Option<string>)
    ensures key !in p ==> r == Some(default)
    ensures key in p ==> (r.Some? <==> p[key].StringPref?)
    ensures key in p && p[key].StringPref? ==> r == Some(p[key].s)
  {
    if key !in p then Some(default)
    else match p[key]
      case StringPref(v) => Some(v)
      case IntPref(_) => None
  }

  /** The separator of the legacy file. */
  const Separator: string := "<=>"

  /** Keys whose value is stored as an int. */
  predicate IsCountKey(key: string)
  {
    Contains(key, "count")
  }

  /** The store the line parser produces: ints exactly under the count keys. */
  predicate Consistent(p: PrefMap)
  {
    forall k :: k in p ==> (p[k].IntPref? <==> IsCountKey(k))
  }

  /** One line of loadFromFile_1: split on "<=>"; with fewer than two parts the
      line is ignored; a key containing "count" takes Integer.parseInt of part 1,
      and an unparsable number drops the line; any other key takes part 1 as a
      string. Later parts are ignored. */
  function ParseLine(p: PrefMap, line: string): (r: PrefMap)
    ensures Consistent(p) ==> Consistent(r)
    ensures |JavaSplit(line, Separator)| <= 1 ==> r == p
    ensures |JavaSplit(line, Separator)| > 1 ==> forall k :: k != JavaSplit(line, Separator)[0] ==>
      (k in r <==> k in p) && (k in p ==> r[k] == p[k])
  {
    var parts := JavaSplit(line, Separator);
    if |parts| > 1 then
      if IsCountKey(parts[0]) then
        match ParseInt(parts[1])
        case Some(v) => p[parts[0] := IntPref(v)]
        case None => p
      else p[parts[0] := StringPref(parts[1])]
    else p
  }

  /** The reading loop from a cleared editor; a later line for the same key wins. */
  function ParseLines(lines: seq<string>): (r: PrefMap)
    ensures Consistent(r)
    decreases |lines|
  {
    if |lines| == 0 then map[]
    else ParseLine(ParseLines(lines[..|lines| - 1]), lines[|lines| - 1])
  }

  /** The while loop of loadFromFile_1 over the lines of the file. */
  method ReadLines(lines: seq<string>) returns (prefs: PrefMap)
    ensures prefs == ParseLines(lines)
    ensures Consistent(prefs)
  {
    prefs := map[];
    var i := 0;
    while i < |lines|
      invariant 0 <= i <= |lines|
      invariant prefs == ParseLines(lines[..i])
    {
      assert lines[..i + 1][..i] == lines[..i];
      assert ParseLines(lines[..i + 1]) == ParseLine(prefs, lines[i]);
      var keyVal := JavaSplit(lines[i], Separator);
      if |keyVal| > 1 {
        if IsCountKey(keyVal[0]) {
          var v := ParseInt(keyVal[1]);
          if v.Some? {
            prefs := prefs[keyVal[0] := IntPref(v.value)];
          }
        } else {
          prefs := prefs[keyVal[0] := StringPref(keyVal[1])];
        }
      }
      i := i + 1;
    }
    assert lines[..i] == lines;
  }

  // ---------------------------------------------------------------------------
  // What the parser does with the lines the old saver wrote.

  /** The text of a line: key, separator, value. */
  function Line(key: string, value: string): string
  {
    key + Separator + value
  }

  /** A string line round-trips: a key without '<' or "count" and a non-empty
      value without '<' are stored as that string. */
  lemma StringLineRoundTrip(p: PrefMap, key: string, value: string)
    requires '<' !in key && '<' !in value && 0 < |value| && !IsCountKey(key)
    ensures ParseLine(p, Line(key, value)) == p[key := StringPref(value)]
  {
    SplitJoined(key, value, Separator);
  }

  /** An int line round-trips: a count key without '<' and any 32-bit value
      rendered in decimal are stored as that int. */
  lemma IntLineRoundTrip(p: PrefMap, key: string, n: int)
    requires '<' !in key && IsCountKey(key) && Int32Min <= n <= Int32Max
    ensures ParseLine(p, Line(key, IntToString(n))) == p[key := IntPref(n)]
  {
    IntToStringChars(n);
    assert '<' !in IntToString(n);
    SplitJoined(key, IntToString(n), Separator);
    ParseIntToString(n);
  }

  /** A count line whose value ParseInt refuses is dropped and keeps the earlier value. */
  lemma BadCountLineIgnored(p: PrefMap, key: string, value: string)
    requires '<' !in key && '<' !in value && 0 < |value| && IsCountKey(key)
    requires ParseInt(value).None?
    ensures ParseLine(p, Line(key, value)) == p
  {
    SplitJoined(key, value, Separator);
  }

  /** A line without the separator is ignored. */
  lemma NoSeparatorIgnored(p: PrefMap, line: string)
    requires !Contains(line, Separator)
    ensures ParseLine(p, line) == p
  {
    var i := FirstIndexFrom(line, Separator, 0);
    assert i >= 0 ==> OccursAt(line, Separator, i) && i <= |line|;
  }

  /** A line with an empty value is ignored: split drops the trailing empty part. */
  lemma EmptyValueIgnored(p: PrefMap, key: string)
    requires '<' !in key
    ensures ParseLine(p, key + Separator) == p
  {
    var s := key + Separator;
    assert s[|key|..|key| + 3] == Separator;
    assert OccursAt(s, Separator, |key|);
    forall j | 0 <= j < |key|
      ensures !OccursAt(s, Separator, j)
    {
      if j + 3 <= |s| {
        assert s[j..j + 3][0] == key[j];
      }
    }
    assert FirstIndexFrom(s, Separator, 0) == |key|;
    assert s[..|key|] == key;
    assert s[|key| + 3..] == "";
    assert SplitAll("", Separator) == [""];
    assert SplitAll(s, Separator) == [key, ""];
    assert DropTrailingEmpty([key, ""]) == DropTrailingEmpty([key]);
  }
}

=== FILE: query.dfy ===
/** The request that buildURI assembles in CalculateTechnicalAnalysis.java and
    StockDataFetcher.java: two dates in "%04d-%02d-%02d" form, a YQL query text,
    the character escaping applied to it, and the fixed prefix and suffix. The
    calendar arithmetic that yields the two dates is left to the caller. */
module Query {
  import opened Util
  import opened Text

  /** String.format("%04d-%02d-%02d", year, month, day). */
  function FormatDate(year: nat, month: nat, day: nat): string
  {
    PadNat(year, 4) + "-" + PadNat(month, 2) + "-" + PadNat(day, 2)
  }

  /** Reads a "YYYY-MM-DD" text back into its three numbers. */
  function ParseDate(r: string): Option<(nat, nat, nat)>
  {
    if |r| == 10 && r[4] == '-' && r[7] == '-'
       && AllDigits(r[..4]) && AllDigits(r[5..7]) && AllDigits(r[8..])
    then Some((ParseDigits(r[..4]), ParseDigits(r[5..7]), ParseDigits(r[8..])))
    else None
  }

  /** A formatted date is ten characters with dashes at 4 and 7, and reads back as
      the year, month and day it was made from. */
  lemma FormatDateRoundTrip(year: nat, month: nat, day: nat)
    requires year <= 9999 && month <= 99 && day <= 99
    ensures var r := FormatDate(year, month, day); |r| == 10 && r[4] == '-' && r[7] == '-'
    ensures ParseDate(FormatDate(year, month, day)) == Some((year, month, day))
  {
    NatToStringLength(year, 4);
    NatToStringLength(month, 2);
    NatToStringLength(day, 2);
    var r := FormatDate(year, month, day);
    assert r[..4] == PadNat(year, 4);
    assert r[5..7] == PadNat(month, 2);
    assert r[8..] == PadNat(day, 2);
  }

  /** The escape applied to one character; commas are escaped only by the
      StockDataFetcher variant. */
  function EncodeChar(c: char, commas: bool): string
  {
    if c == ' ' then "%20"
    else if c == '=' then "%3D"
    else if c == '"' then "%22"
    else if c == '^' then "%5E"
    else if c == ',' && commas then "%2C"
    else [c]
  }

  /** One left-to-right pass applying EncodeChar to every character. */
  function Encode(q: string, commas: bool): string
    decreases |q|
  {
    if |q| == 0 then "" else EncodeChar(q[0], commas) + Encode(q[1..], commas)
  }

  /** The chain of replace calls at CalculateTechnicalAnalysis.java line 55. */
  function EscapeCloseQuery(q: string): (r: string)
    ensures ' ' !in r && '=' !in r && '"' !in r && '^' !in r
  {
    ReplaceChar(ReplaceChar(ReplaceChar(ReplaceChar(q, ' ', "%20"), '=', "%3D"), '"', "%22"), '^', "%5E")
  }

  /** The chain of replace calls at StockDataFetcher.java line 52. */
  function EscapeStockQuery(q: string): (r: string)
    ensures ' ' !in r && '=' !in r && '"' !in r && '^' !in r && ',' !in r
  {
    ReplaceChar(EscapeCloseQuery(q), ',', "%2C")
  }

  /** Undoes the five escapes; any other text is kept. */
  function Decode(s: string): string
    decreases |s|
  {
    if |s| == 0 then ""
    else if |s| >= 3 && s[0] == '%' && s[1..3] == "20" then " " + Decode(s[3..])
    else if |s| >= 3 && s[0] == '%' && s[1..3] == "3D" then "=" + Decode(s[3..])
    else if |s| >= 3 && s[0] == '%' && s[1..3] == "22" then "\"" + Decode(s[3..])
    else if |s| >= 3 && s[0] == '%' && s[1..3] == "5E" then "^" + Decode(s[3..])
    else if |s| >= 3 && s[0] == '%' && s[1..3] == "2C" then "," + Decode(s[3..])
    else [s[0]] + Decode(s[1..])
  }

  /** On one character the replace chain of CalculateTechnicalAnalysis is EncodeChar. */
  lemma EscapeCloseChar(c: char)
    ensures EscapeCloseQuery([c]) == EncodeChar(c, false)
  {
  }

  /** On one character the replace chain of StockDataFetcher is EncodeChar with commas:
      only a ',' is left for the last replace call. */
  lemma EscapeStockChar(c: char)
    ensures EscapeStockQuery([c]) == EncodeChar(c, true)
  {
    EscapeCloseChar(c);
    var e := EncodeChar(c, false);
    if c == ',' {
      assert e == [','];
      assert ReplaceChar(e, ',', "%2C") == "%2C";
    } else {
      assert ',' !in e;
    }
  }

  /** The chain of replace calls equals the one-pass escape: no replacement text
      contains a character that a later replace call looks for. */
  lemma {:induction false} EscapeCloseIsEncode(q: string)
    ensures EscapeCloseQuery(q) == Encode(q, false)
    decreases |q|
  {
    if |q| > 0 {
      var a, b := [q[0]], q[1..];
      assert q == a + b;
      var r1a, r1b := ReplaceChar(a, ' ', "%20"), ReplaceChar(b, ' ', "%20");
      ReplaceCharAppend(a, b, ' ', "%20");
      var r2a, r2b := ReplaceChar(r1a, '=', "%3D"), ReplaceChar(r1b, '=', "%3D");
      ReplaceCharAppend(r1a, r1b, '=', "%3D");
      var r3a, r3b := ReplaceChar(r2a, '"', "%22"), ReplaceChar(r2b, '"', "%22");
      ReplaceCharAppend(r2a, r2b, '"', "%22");
      ReplaceCharAppend(r3a, r3b, '^', "%5E");
      EscapeCloseChar(q[0]);
      EscapeCloseIsEncode(b);
    }
  }

  lemma {:induction false} EscapeStockIsEncode(q: string)
    ensures EscapeStockQuery(q) == Encode(q, true)
    decreases |q|
  {
    if |q| > 0 {
      var a, b := [q[0]], q[1..];
      assert q == a + b;
      var r1a, r1b := ReplaceChar(a, ' ', "%20"), ReplaceChar(b, ' ', "%20");
      ReplaceCharAppend(a, b, ' ', "%20");
      var r2a, r2b := ReplaceChar(r1a, '=', "%3D"), ReplaceChar(r1b, '=', "%3D");
      ReplaceCharAppend(r1a, r1b, '=', "%3D");
      var r3a, r3b := ReplaceChar(r2a, '"', "%22"), ReplaceChar(r2b, '"', "%22");
      ReplaceCharAppend(r2a, r2b, '"', "%22");
      var r4a, r4b := ReplaceChar(r3a, '^', "%5E"), ReplaceChar(r3b, '^', "%5E");
      ReplaceCharAppend(r3a, r3b, '^', "%5E");
      ReplaceCharAppend(r4a, r4b, ',', "%2C");
      EscapeStockChar(q[0]);
      EscapeStockIsEncode(b);
    }
  }

  /** Decode keeps a character other than '%'. */
  lemma DecodePlain(c: char, rest: string)
    requires c != '%'
    ensures Decode([c] + rest) == [c] + Decode(rest)
  {
    assert ([c] + rest)[1..] == rest;
  }

  /** Decode turns a three-character escape back into its character. */
  lemma DecodeEscape(c: char, commas: bool, rest: string)
    requires |EncodeChar(c, commas)| == 3
    ensures Decode(EncodeChar(c, commas) + rest) == [c] + Decode(rest)
  {
    var e := EncodeChar(c, commas);
    assert (e + rest)[3..] == rest;
    assert (e + rest)[1..3] == e[1..3];
    assert (e + rest)[0] == '%';
  }

  /** Decoding undoes the one-pass escape for text without '%'. */
  lemma {:induction false} DecodeEncode(q: string, commas: bool)
    requires '%' !in q
    ensures Decode(Encode(q, commas)) == q
    decreases |q|
  {
    if |q| > 0 {
      var e := EncodeChar(q[0], commas);
      var rest := Encode(q[1..], commas);
      assert Encode(q, commas) == e + rest;
      assert q == [q[0]] + q[1..];
      DecodeEncode(q[1..], commas);
      if |e| == 3 {
        DecodeEscape(q[0], commas, rest);
      } else {
        assert e == [q[0]];
        DecodePlain(q[0], rest);
      }
    }
  }

  const YqlPrefix: string := "http://query.yahooapis.com/v1/public/yql?q="
  const EnvSuffix: string := "&env=store%3A%2F%2Fdatatables.org%2Falltableswithkeys"

  /** " from yahoo.finance.historicaldata where startDate=\"", kept in short pieces
      so that the check that no piece holds a '%' stays small. */
  const FromTable: string := " from yahoo." + "finance." + "historicaldata" + " where startDate=\""
  const CloseSelect: string := "select Close" + FromTable
  const StockSelect: string := "select Adj_Close,High,Low" + FromTable
  const SymbolPart: string := "\" AND symbol=\""
  const EndPart: string := "\" AND endDate=\""
  const Quote: string := "\""

  /** The query text of CalculateTechnicalAnalysis.buildURI. */
  function CloseQueryText(symbol: string, start: string, end: string): string
  {
    CloseSelect + start + SymbolPart + symbol + EndPart + end + Quote
  }

  /** The query text of StockDataFetcher.buildURI. */
  function StockQueryText(symbol: string, start: string, end: string): string
  {
    StockSelect + start + SymbolPart + symbol + EndPart + end + Quote
  }

  /** The fixed fragments of both query texts carry no '%'. */
  lemma TemplatesHaveNoPercent()
    ensures '%' !in CloseSelect && '%' !in StockSelect
    ensures '%' !in SymbolPart && '%' !in EndPart && '%' !in Quote
  {
    assert '%' !in " from yahoo." && '%' !in "finance." && '%' !in "historicaldata" && '%' !in " where startDate=\"";
    assert '%' !in "select Close" && '%' !in "select Adj_Close,High,Low";
    assert forall i | 0 <= i < |SymbolPart| :: SymbolPart[i] != '%';
    assert forall i | 0 <= i < |EndPart| :: EndPart[i] != '%';
  }

  /** The text handed to new URI(...) by CalculateTechnicalAnalysis.buildURI. */
  function CloseRequest(symbol: string, start: string, end: string): string
  {
    YqlPrefix + EscapeCloseQuery(CloseQueryText(symbol, start, end)) + EnvSuffix
  }

  /** The text handed to new URI(...) by StockDataFetcher.buildURI. */
  function StockRequest(symbol: string, start: string, end: string): string
  {
    YqlPrefix + EscapeStockQuery(StockQueryText(symbol, start, end)) + EnvSuffix
  }

  /** The query part of the CalculateTechnicalAnalysis request carries no raw space,
      '=', '"' or '^', and decodes back to the query text when the symbol and the
      dates carry no '%'. */
  lemma CloseRequestShape(symbol: string, start: string, end: string)
    requires '%' !in symbol && '%' !in start && '%' !in end
    ensures var middle := EscapeCloseQuery(CloseQueryText(symbol, start, end));
      && CloseRequest(symbol, start, end) == YqlPrefix + middle + EnvSuffix
      && ' ' !in middle && '=' !in middle && '"' !in middle && '^' !in middle
      && Decode(middle) == CloseQueryText(symbol, start, end)
  {
    var q := CloseQueryText(symbol, start, end);
    TemplatesHaveNoPercent();
    assert '%' !in q;
    EscapeCloseIsEncode(q);
    DecodeEncode(q, false);
  }

  /** The query part of the StockDataFetcher request carries no raw space, '=',
      '"', '^' or ',', and decodes back to the query text when the symbol and the
      dates carry no '%'. */
  lemma StockRequestShape(symbol: string, start: string, end: string)
    requires '%' !in symbol && '%' !in start && '%' !in end
    ensures var middle := EscapeStockQuery(StockQueryText(symbol, start, end));
      && StockRequest(symbol, start, end) == YqlPrefix + middle + EnvSuffix
      && ' ' !in middle && '=' !in middle && '"' !in middle && '^' !in middle && ',' !in middle
      && Decode(middle) == StockQueryText(symbol, start, end)
  {
    var q := StockQueryText(symbol, start, end);
    TemplatesHaveNoPercent();
    assert '%' !in q;
    EscapeStockIsEncode(q);
    DecodeEncode(q, true);
  }
}

=== FILE: registry.dfy ===
/** DataController.java: the in-memory list of groups, and load_1, which
    rebuilds that list from the legacy key/value store. */
module Registry {
  import opened Util
  import opened Text
  import opened Symbols
  import opened Groups
  import opened Prefs

  datatype Registry = Registry(groups: seq<Group>)

  /** getGroup(i): the group at i, or null past the end; a negative index is not
      guarded in the source, so i is a nat. */
  function GetGroup(r: Registry, i: nat): (g: Option<Group>)
    ensures i < |r.groups| ==> g == Some(r.groups[i])
    ensures i >= |r.groups| ==> g == None
  {
    if |r.groups| > i then Some(r.groups[i]) else None
  }

  /** addGroup(name): appends a new empty group, with no check for a duplicate name. */
  function AddGroup(r: Registry, name: string): (res: (Registry, Group))
    ensures |res.0.groups| == |r.groups| + 1
    ensures res.0.groups[..|r.groups|] == r.groups
    ensures res.0.groups[|r.groups|] == res.1 && res.1 == NewGroup(name)
  {
    var g := NewGroup(name);
    (Registry(r.groups + [g]), g)
  }

  /** addSymbol(groupIndex, name, valuation): null and no change past the end;
      otherwise only the chosen group grows. */
  function AddSymbolTo(r: Registry, groupIndex: nat, name: string, valuation: Option<real>): (res: (Registry, Option<Symbol>))
    ensures groupIndex >= |r.groups| ==> res == (r, None)
    ensures groupIndex < |r.groups| ==>
      && |res.0.groups| == |r.groups|
      && (forall k :: 0 <= k < |r.groups| && k != groupIndex ==> res.0.groups[k] == r.groups[k])
      && res.0.groups[groupIndex] == AddSymbol(r.groups[groupIndex], name, valuation).0
      && res.1 == Some(NewSymbol(name, valuation))
  {
    if |r.groups| > groupIndex then
      var (g, s) := AddSymbol(r.groups[groupIndex], name, valuation);
      (Registry(r.groups[groupIndex := g]), Some(s))
    else (r, None)
  }

  /** Total number of symbols over a list of groups. */
  function SymbolCount(groups: seq<Group>): nat
    decreases |groups|
  {
    if |groups| == 0 then 0 else SymbolCount(groups[..|groups| - 1]) + |groups[|groups| - 1].symbols|
  }

  /** getAllSymbols: each group's symbols in turn, in group order. */
  function Flatten(groups: seq<Group>): (all: seq<Symbol>)
    ensures |all| == SymbolCount(groups)
    ensures forall s :: s in all <==> exists k :: 0 <= k < |groups| && s in groups[k].symbols
    decreases |groups|
  {
    if |groups| == 0 then []
    else
      var init := groups[..|groups| - 1];
      var all := Flatten(init) + groups[|groups| - 1].symbols;
      assert forall k :: 0 <= k < |init| ==> init[k] == groups[k];
      all
  }

  /** getAllSymbols keeps group order: the result is the symbols of the groups
      before k, then group k's own symbols in their order, then the symbols of the
      groups after it. */
  function AllSymbols(r: Registry): (all: seq<Symbol>)
    ensures |all| == SymbolCount(r.groups)
    ensures forall s :: s in all <==> exists k :: 0 <= k < |r.groups| && s in r.groups[k].symbols
    ensures forall k :: 0 <= k < |r.groups| ==>
      all == Flatten(r.groups[..k]) + r.groups[k].symbols + Flatten(r.groups[k + 1..])
  {
    forall k | 0 <= k < |r.groups|
      ensures Flatten(r.groups) == Flatten(r.groups[..k]) + r.groups[k].symbols + Flatten(r.groups[k + 1..])
    {
      FlattenSplit(r.groups, k);
    }
    Flatten(r.groups)
  }

  /** Symbol counts add up over a concatenation of group lists. */
  lemma {:induction false} SymbolCountAppend(a: seq<Group>, b: seq<Group>)
    ensures SymbolCount(a + b) == SymbolCount(a) + SymbolCount(b)
    decreases |b|
  {
    if |b| == 0 {
      assert a + b == a;
    } else {
      var b0 := b[..|b| - 1];
      assert (a + b)[..|a + b| - 1] == a + b0;
      SymbolCountAppend(a, b0);
    }
  }

  /** Flattening distributes over a concatenation of group lists: the symbols of
      the first list come first, in order. */
  lemma {:induction false} FlattenAppend(a: seq<Group>, b: seq<Group>)
    ensures Flatten(a + b) == Flatten(a) + Flatten(b)
    decreases |b|
  {
    if |b| == 0 {
      assert a + b == a;
    } else {
      var b0 := b[..|b| - 1];
      assert (a + b)[..|a + b| - 1] == a + b0;
      assert (a + b)[|a + b| - 1] == b[|b| - 1];
      FlattenAppend(a, b0);
    }
  }

  /** One group's place in the flattened list: the groups before it, its own
      symbols, the groups after it. */
  lemma {:induction false} FlattenSplit(groups: seq<Group>, k: nat)
    requires k < |groups|
    ensures Flatten(groups) == Flatten(groups[..k]) + groups[k].symbols + Flatten(groups[k + 1..])
  {
    var init, post := groups[..k + 1], groups[k + 1..];
    assert init[..k] == groups[..k] && init[k] == groups[k];
    assert Flatten(init) == Flatten(groups[..k]) + groups[k].symbols;
    assert groups == init + post;
    FlattenAppend(init, post);
  }

  /** Adding a group adds no symbol; adding a symbol to an existing group adds
      exactly one to the flattened list. */
  lemma AllSymbolsGrowth(r: Registry, groupName: string, groupIndex: nat, name: string, valuation: Option<real>)
    ensures AllSymbols(AddGroup(r, groupName).0) == AllSymbols(r)
    ensures groupIndex < |r.groups| ==>
      |AllSymbols(AddSymbolTo(r, groupIndex, name, valuation).0)| == |AllSymbols(r)| + 1
      && NewSymbol(name, valuation) in AllSymbols(AddSymbolTo(r, groupIndex, name, valuation).0)
    ensures groupIndex >= |r.groups| ==> AllSymbols(AddSymbolTo(r, groupIndex, name, valuation).0) == AllSymbols(r)
  {
    var g := AddGroup(r, groupName).0.groups;
    assert g[..|g| - 1] == r.groups;
    if groupIndex < |r.groups| {
      var gs := r.groups;
      var hs := AddSymbolTo(r, groupIndex, name, valuation).0.groups;
      assert gs == gs[..groupIndex] + [gs[groupIndex]] + gs[groupIndex + 1..];
      assert hs == gs[..groupIndex] + [hs[groupIndex]] + gs[groupIndex + 1..];
      SymbolCountAppend(gs[..groupIndex] + [gs[groupIndex]], gs[groupIndex + 1..]);
      SymbolCountAppend(gs[..groupIndex], [gs[groupIndex]]);
      SymbolCountAppend(gs[..groupIndex] + [hs[groupIndex]], gs[groupIndex + 1..]);
      SymbolCountAppend(gs[..groupIndex], [hs[groupIndex]]);
      assert SymbolCount([gs[groupIndex]]) == |gs[groupIndex].symbols|;
      assert SymbolCount([hs[groupIndex]]) == |hs[groupIndex].symbols|;
      var s := NewSymbol(name, valuation);
      assert s in hs[groupIndex].symbols;
    }
  }

  // ---------------------------------------------------------------------------
  // load_1.

  const GroupCountKey: string := "count"

  function GroupNameKey(i: int): string { "group:" + IntToString(i) + ":name" }

  function SymbolCountKey(i: int): string { "group:" + IntToString(i) + ":count" }

  /** "group:" + i + ":" + j + "name", the key the old saver used. */
  function SymbolNameKey(i: int, j: int): string { "group:" + IntToString(i) + ":" + IntToString(j) + "name" }

  /** "group:" + i + ":" + j + ":name", consulted when the first key gives "". */
  function SymbolFallbackKey(i: int, j: int): string { "group:" + IntToString(i) + ":" + IntToString(j) + ":name" }

  const DefaultGroupName: string := "Group"

  /** The name of symbol j of group i: the first key, or the fallback key when the
      first gives "" (absent or empty); an empty name is kept. */
  function SymbolNameAt(p: PrefMap, i: int, j: int): (r: Option<string>)
    ensures GetString(p, SymbolNameKey(i, j), "").Some? && GetString(p, SymbolNameKey(i, j), "").value != "" ==>
      r == GetString(p, SymbolNameKey(i, j), "")
    ensures GetString(p, SymbolNameKey(i, j), "") == Some("") ==> r == GetString(p, SymbolFallbackKey(i, j), "")
    ensures GetString(p, SymbolNameKey(i, j), "").None? ==> r.None?
  {
    match GetString(p, SymbolNameKey(i, j), "")
    case None => None
    case Some(name) => if name == "" then GetString(p, SymbolFallbackKey(i, j), "") else Some(name)
  }

  /** The inner loop of load_1 for group i, up to symbol k. */
  function LoadSymbols(p: PrefMap, i: int, k: nat): (r: Option<seq<Symbol>>)
    ensures r.Some? <==> forall j :: 0 <= j < k ==> SymbolNameAt(p, i, j).Some?
    ensures r.Some? ==> |r.value| == k
    ensures r.Some? ==> forall j :: 0 <= j < k ==> r.value[j] == NewSymbol(SymbolNameAt(p, i, j).value, None)
    decreases k
  {
    if k == 0 then Some([])
    else
      match LoadSymbols(p, i, k - 1)
      case None => None
      case Some(init) =>
        match SymbolNameAt(p, i, k - 1)
        case None => None
        case Some(name) => Some(init + [NewSymbol(name, None)])
  }

  /** One pass of the outer loop of load_1: the name (default "Group"), the symbol
      count (default 0, a negative count meaning none), then the symbols. */
  function LoadGroup(p: PrefMap, i: int): Option<Group>
  {
    match GetString(p, GroupNameKey(i), DefaultGroupName)
    case None => None
    case Some(name) =>
      match GetInt(p, SymbolCountKey(i), 0)
      case None => None
      case Some(count) =>
        match LoadSymbols(p, i, Max0(count))
        case None => None
        case Some(symbols) => Some(Group(name, symbols))
  }

  /** The outer loop of load_1 up to group k. */
  function LoadGroups(p: PrefMap, k: nat): (r: Option<seq<Group>>)
    ensures r.Some? <==> forall i :: 0 <= i < k ==> LoadGroup(p, i).Some?
    ensures r.Some? ==> |r.value| == k
    ensures r.Some? ==> forall i :: 0 <= i < k ==> Some(r.value[i]) == LoadGroup(p, i)
    decreases k
  {
    if k == 0 then Some([])
    else
      match LoadGroups(p, k - 1)
      case None => None
      case Some(init) =>
        match LoadGroup(p, k - 1)
        case None => None
        case Some(g) => Some(init + [g])
  }

  /** load_1: clears the registry and builds prefs["count"] groups (default 0). A
      getter that meets a value of the wrong type throws ClassCastException, here
      None. */
  function Load1(p: PrefMap): Option<Registry>
  {
    match GetInt(p, GroupCountKey, 0)
    case None => None
    case Some(n) =>
      match LoadGroups(p, Max0(n))
      case None => None
      case Some(groups) => Some(Registry(groups))
  }

  /** What a successful load_1 built: exactly count groups; group i named by its
      name key (default "Group") and holding exactly its symbol count of symbols
      (default 0), each fresh, without valuation, named by SymbolNameAt. */
  lemma Load1Shape(p: PrefMap, i: nat, j: nat)
    requires Load1(p).Some?
    ensures GetInt(p, GroupCountKey, 0).Some?
    ensures |Load1(p).value.groups| == Max0(GetInt(p, GroupCountKey, 0).value)
    ensures i < |Load1(p).value.groups| ==>
      var g := Load1(p).value.groups[i];
      && GetString(p, GroupNameKey(i), DefaultGroupName) == Some(g.name)
      && GetInt(p, SymbolCountKey(i), 0).Some?
      && |g.symbols| == Max0(GetInt(p, SymbolCountKey(i), 0).value)
      && (j < |g.symbols| ==> SymbolNameAt(p, i, j).Some? && g.symbols[j] == NewSymbol(SymbolNameAt(p, i, j).value, None))
  {
    var n := GetInt(p, GroupCountKey, 0).value;
    var gs := LoadGroups(p, Max0(n));
    if i < Max0(n) {
      assert LoadGroup(p, i) == Some(gs.value[i]);
    }
  }

  /** The non-count keys load_1 reads hold no "count". */
  lemma KeysKinds(i: int, j: int)
    ensures IsCountKey(GroupCountKey) && IsCountKey(SymbolCountKey(i))
    ensures !IsCountKey(GroupNameKey(i)) && !IsCountKey(SymbolNameKey(i, j)) && !IsCountKey(SymbolFallbackKey(i, j))
  {
    EndsWithCount("");
    assert "" + "count" == GroupCountKey;
    EndsWithCount("group:" + IntToString(i) + ":");
    assert "group:" + IntToString(i) + ":" + "count" == SymbolCountKey(i);
    IntToStringChars(i);
    IntToStringChars(j);
    assert 'c' !in IntToString(i) && 'c' !in IntToString(j);
    NoCountWithoutC(GroupNameKey(i));
    NoCountWithoutC(SymbolNameKey(i, j));
    NoCountWithoutC(SymbolFallbackKey(i, j));
  }

  /** On a store the line parser produced every getter finds the type it expects,
      so load_1 never throws. */
  lemma Load1Total(p: PrefMap)
    requires Consistent(p)
    ensures Load1(p).Some?
  {
    KeysKinds(0, 0);
    var n := GetInt(p, GroupCountKey, 0).value;
    forall i | 0 <= i < Max0(n)
      ensures LoadGroup(p, i).Some?
    {
      KeysKinds(i, 0);
      var c := GetInt(p, SymbolCountKey(i), 0).value;
      forall j | 0 <= j < Max0(c)
        ensures SymbolNameAt(p, i, j).Some?
      {
        KeysKinds(i, j);
      }
    }
  }

  /** Reading an old file and loading from it never fails. */
  lemma LoadAfterRead(lines: seq<string>)
    ensures Load1(ParseLines(lines)).Some?
  {
    Load1Total(ParseLines(lines));
  }

  /** A symbol name that cannot be read makes every longer inner loop fail. */
  lemma LoadSymbolsStops(p: PrefMap, i: int, j: nat, k: nat)
    requires j < k && SymbolNameAt(p, i, j).None?
    ensures LoadSymbols(p, i, k).None?
  {
  }

  /** The inner loop of load_1: the symbols of group i. */
  method ReadSymbols(p: PrefMap, i: int, count: int) returns (r: Option<seq<Symbol>>)
    ensures r == LoadSymbols(p, i, Max0(count))
  {
    var n := Max0(count);
    var symbols: seq<Symbol> := [];
    var j := 0;
    while j < n
      invariant 0 <= j <= n
      invariant LoadSymbols(p, i, j) == Some(symbols)
    {
      var name := GetString(p, SymbolNameKey(i, j), "");
      if name.Some? && name.value == "" {
        name := GetString(p, SymbolFallbackKey(i, j), "");
      }
      assert name == SymbolNameAt(p, i, j);
      if name.None? {
        LoadSymbolsStops(p, i, j, n);
        return None;
      }
      assert LoadSymbols(p, i, j + 1) == Some(symbols + [NewSymbol(name.value, None)]);
      symbols := symbols + [NewSymbol(name.value, None)];
      j := j + 1;
    }
    return Some(symbols);
  }

  /** One pass of the outer loop of load_1. */
  method ReadGroup(p: PrefMap, i: int) returns (r: Option<Group>)
    ensures r == LoadGroup(p, i)
  {
    var groupName := GetString(p, GroupNameKey(i), DefaultGroupName);
    if groupName.None? {
      return None;
    }
    var symbolCount := GetInt(p, SymbolCountKey(i), 0);
    if symbolCount.None? {
      return None;
    }
    var symbols := ReadSymbols(p, i, symbolCount.value);
    if symbols.None? {
      return None;
    }
    return Some(Group(groupName.value, symbols.value));
  }

  /** The outer loop of load_1. */
  method LoadLegacy(p: PrefMap) returns (r: Option<Registry>)
    ensures r == Load1(p)
  {
    var groupCount := GetInt(p, GroupCountKey, 0);
    if groupCount.None? {
      return None;
    }
    var groups: seq<Group> := [];
    var i := 0;
    while i < groupCount.value
      invariant 0 <= i <= Max0(groupCount.value)
      invariant LoadGroups(p, i) == Some(groups)
    {
      var group := ReadGroup(p, i);
      if group.None? {
        return None;
      }
      groups := groups + [group.value];
      i := i + 1;
    }
    return Some(Registry(groups));
  }
}

=== FILE: symbols.dfy ===
/** Symbol.java: one ticker with its optional Rule #1 valuation, its optional
    stock data, the retry counter consulted after a failed fetch, the Rule #1
    predicates over the newest data points, and the attribute write/read pair
    used by the XML persistence. */
module Symbols {
  import opened Util
  import opened Text
  import opened Xml

  /** A Java int. */
  type Int32 = x: int | Int32Min <= x <= Int32Max

  /** One trading day of StockDataList: the three fetched prices and the
      indicator values calculateIndicators attaches to it. */
  datatype StockData = StockData(
    close: real, high: real, low: real,
    sma10: real, stochastic: real, stochasticSignal: real,
    histogram: real)

  datatype Symbol = Symbol(
    name: string,
    displayName: string,
    valuation: Option<real>,
    data: Option<seq<StockData>>,
    retries: Int32)

  /** Retries a fresh symbol allows. */
  const InitialRetries: Int32 := 3

  /** new Symbol(name, ruleNo1Valuation). */
  function NewSymbol(name: string, valuation: Option<real>): Symbol
  {
    Symbol(name, "", valuation, None, InitialRetries)
  }

  function HasStockData(s: Symbol): bool { s.data.Some? }

  function HasDisplayName(s: Symbol): bool { |s.displayName| > 0 }

  function HasRuleNo1Valuation(s: Symbol): bool { s.valuation.Some? }

  /** toString. */
  function ToString(s: Symbol): string { s.name }

  /** equals(Object) for a String argument: the argument is compared with the
      name, the same text toString gives. */
  function EqualsName(s: Symbol, other: string): (r: bool)
    ensures r <==> ToString(s) == other
  {
    s.name == other
  }

  // ---------------------------------------------------------------------------
  // The retry counter.

  /** `c--` on a Java int: Integer.MIN_VALUE wraps to Integer.MAX_VALUE. */
  function Decrement32(c: Int32): Int32
  {
    if c == Int32Min then Int32Max else c - 1
  }

  /** doRetry: answers whether the counter was positive, and decrements it on
      every call. */
  function DoRetry(s: Symbol): (r: (bool, Symbol))
    ensures r.1 == s.(retries := r.1.retries)
    ensures r.0 <==> s.retries > 0
  {
    (s.retries > 0, s.(retries := Decrement32(s.retries)))
  }

  /** The answers of k successive doRetry calls and the symbol afterwards. */
  function RetryRun(s: Symbol, k: nat): (r: (seq<bool>, Symbol))
    ensures |r.0| == k
    decreases k
  {
    if k == 0 then ([], s)
    else
      var (b, s1) := DoRetry(s);
      var (rest, s2) := RetryRun(s1, k - 1);
      ([b] + rest, s2)
  }

  /** As long as the counter does not pass Integer.MIN_VALUE, call i sees the
      counter minus i and the counter ends k lower. */
  lemma {:induction false} RetryCountdown(s: Symbol, k: nat)
    requires s.retries - k >= Int32Min
    ensures forall i :: 0 <= i < k ==> (RetryRun(s, k).0[i] <==> s.retries - i > 0)
    ensures RetryRun(s, k).1 == s.(retries := s.retries - k)
    decreases k
  {
    if k > 0 {
      var s1 := DoRetry(s).1;
      assert s1.retries == s.retries - 1;
      RetryCountdown(s1, k - 1);
      var r := RetryRun(s, k).0;
      var rest := RetryRun(s1, k - 1).0;
      assert r == [s.retries > 0] + rest;
      forall i | 0 <= i < k
        ensures r[i] <==> s.retries - i > 0
      {
        if i > 0 {
          assert r[i] == rest[i - 1];
        }
      }
    }
  }

  /** A fresh symbol answers true to the first three calls and false to every
      later one, for as many calls as it takes the counter to reach
      Integer.MIN_VALUE. */
  lemma FreshRetries(name: string, valuation: Option<real>, k: nat)
    requires k <= 0x8000_0004
    ensures forall i :: 0 <= i < k ==> (RetryRun(NewSymbol(name, valuation), k).0[i] <==> i < 3)
  {
    var s := NewSymbol(name, valuation);
    if k <= 0x8000_0003 {
      RetryCountdown(s, k);
    } else {
      RetryCountdown(s, k - 1);
      RetryRunSnoc(s, k - 1);
    }
  }

  /** One more call appends its answer after the earlier ones. */
  lemma {:induction false} RetryRunSnoc(s: Symbol, k: nat)
    ensures RetryRun(s, k + 1).0 == RetryRun(s, k).0 + [DoRetry(RetryRun(s, k).1).0]
    ensures RetryRun(s, k + 1).1 == DoRetry(RetryRun(s, k).1).1
    decreases k
  {
    if k > 0 {
      var s1 := DoRetry(s).1;
      RetryRunSnoc(s1, k - 1);
      assert RetryRun(s, k + 1).0 == [DoRetry(s).0] + RetryRun(s1, k).0;
    }
  }

  /** The counter is a wrapping int: after 2^31 + 4 calls it has gone from
      Integer.MIN_VALUE to Integer.MAX_VALUE and the next call answers true again. */
  lemma RetryWrapsAround(name: string, valuation: Option<real>)
    ensures RetryRun(NewSymbol(name, valuation), 0x8000_0004).1.retries == Int32Max
    ensures RetryRun(NewSymbol(name, valuation), 0x8000_0005).0[0x8000_0004]
  {
    var s := NewSymbol(name, valuation);
    RetryCountdown(s, 0x8000_0003);
    RetryRunSnoc(s, 0x8000_0003);
    RetryRunSnoc(s, 0x8000_0004);
  }

  // ---------------------------------------------------------------------------
  // Rule #1 predicates over one data point.

  /** isRuleNo1SMALessThanValue(i): the SMA10 does not exceed the close. */
  predicate SmaBelowClose(d: StockData) { d.sma10 <= d.close }

  /** isRuleNo1StochasticPositive(i): the signal line does not exceed %K. */
  predicate StochasticPositive(d: StockData) { d.stochasticSignal <= d.stochastic }

  /** isRuleNo1HistogramPositive(i): the 8/17/9 histogram is not negative. */
  predicate HistogramPositive(d: StockData) { d.histogram >= 0.0 }

  /** isRuleNo1Buy(i): all three signals up. */
  function BuyOn(d: StockData): (r: bool)
    ensures r ==> SmaBelowClose(d) && StochasticPositive(d) && HistogramPositive(d)
    ensures !r ==> !SmaBelowClose(d) || !StochasticPositive(d) || !HistogramPositive(d)
  {
    SmaBelowClose(d) && StochasticPositive(d) && HistogramPositive(d)
  }

  /** isRuleNo1Sell(i): all three signals down; never at the same point as a buy. */
  function SellOn(d: StockData): (r: bool)
    ensures r ==> !BuyOn(d)
    ensures r ==> d.close < d.sma10 && d.stochastic < d.stochasticSignal && d.histogram < 0.0
  {
    !SmaBelowClose(d) && !StochasticPositive(d) && !HistogramPositive(d)
  }

  /** A point is flagged at all, as a buy or as a sell, exactly when its three
      signals agree; buy and sell never both hold. */
  lemma FlaggedIffSignalsAgree(d: StockData)
    ensures BuyOn(d) || SellOn(d) <==>
      (SmaBelowClose(d) <==> StochasticPositive(d)) && (StochasticPositive(d) <==> HistogramPositive(d))
    ensures !(BuyOn(d) && SellOn(d))
  {
  }

  /** The point the is* predicates read: mData.get(size - 1). */
  function Latest(s: Symbol): StockData
    requires s.data.Some? && |s.data.value| >= 1
  {
    s.data.value[|s.data.value| - 1]
  }

  /** The point the was* predicates read: mData.get(size - 2). */
  function Previous(s: Symbol): StockData
    requires s.data.Some? && |s.data.value| >= 2
  {
    s.data.value[|s.data.value| - 2]
  }

  /** What was* says today, is* said one data point earlier. */
  lemma WasIsPrevious(s: Symbol)
    requires s.data.Some? && |s.data.value| >= 2
    ensures var earlier := s.(data := Some(s.data.value[..|s.data.value| - 1]));
      Previous(s) == Latest(earlier)
      && (WasRuleNo1Buy(s) <==> IsRuleNo1Buy(earlier))
      && (WasRuleNo1Sell(s) <==> IsRuleNo1Sell(earlier))
  {
  }

  function IsRuleNo1Buy(s: Symbol): (r: bool)
    requires s.data.Some? && |s.data.value| >= 1
    ensures r ==> !IsRuleNo1Sell(s)
  {
    BuyOn(Latest(s))
  }

  function WasRuleNo1Buy(s: Symbol): (r: bool)
    requires s.data.Some? && |s.data.value| >= 2
    ensures r ==> !WasRuleNo1Sell(s)
  {
    BuyOn(Previous(s))
  }

  function IsRuleNo1Sell(s: Symbol): bool
    requires s.data.Some? && |s.data.value| >= 1
  {
    SellOn(Latest(s))
  }

  function WasRuleNo1Sell(s: Symbol): bool
    requires s.data.Some? && |s.data.value| >= 2
  {
    SellOn(Previous(s))
  }

  function IsRuleNo1SmaLessThanValue(s: Symbol): bool
    requires s.data.Some? && |s.data.value| >= 1
  {
    SmaBelowClose(Latest(s))
  }

  function WasRuleNo1SmaLessThanValue(s: Symbol): bool
    requires s.data.Some? && |s.data.value| >= 2
  {
    SmaBelowClose(Previous(s))
  }

  function IsRuleNo1HistogramPositive(s: Symbol): bool
    requires s.data.Some? && |s.data.value| >= 1
  {
    HistogramPositive(Latest(s))
  }

  function WasRuleNo1HistogramPositive(s: Symbol): bool
    requires s.data.Some? && |s.data.value| >= 2
  {
    HistogramPositive(Previous(s))
  }

  function IsRuleNo1StochasticPositive(s: Symbol): bool
    requires s.data.Some? && |s.data.value| >= 1
  {
    StochasticPositive(Latest(s))
  }

  function WasRuleNo1StochasticPositive(s: Symbol): bool
    requires s.data.Some? && |s.data.value| >= 2
  {
    StochasticPositive(Previous(s))
  }

  /** isRuleNo1StochasticAbove80: the newest slow %K is at least 80. */
  function IsRuleNo1StochasticAbove80(s: Symbol): (r: bool)
    requires s.data.Some? && |s.data.value| >= 1
    ensures r ==> !IsRuleNo1StochasticBelow20(s)
  {
    Latest(s).stochastic >= 80.0
  }

  /** isRuleNo1StochasticBelow20: the newest slow %K is at most 20. */
  function IsRuleNo1StochasticBelow20(s: Symbol): bool
    requires s.data.Some? && |s.data.value| >= 1
  {
    Latest(s).stochastic <= 20.0
  }

  /** isValueAboveValuation: false without a valuation. The && short-circuits, so
      the data is read only when there is a valuation. */
  function IsValueAboveValuation(s: Symbol): (r: bool)
    requires s.valuation.Some? ==> s.data.Some? && |s.data.value| >= 1
    ensures r ==> s.valuation.Some? && Latest(s).close > s.valuation.value
    ensures s.valuation.None? ==> !r
  {
    s.valuation.Some? && Latest(s).close > s.valuation.value
  }

  /** isValueBelowValuation50: the close under half the valuation; like
      isValueAboveValuation it reads the data only when there is a valuation. */
  function IsValueBelowValuation50(s: Symbol): (r: bool)
    requires s.valuation.Some? ==> s.data.Some? && |s.data.value| >= 1
    ensures r ==> s.valuation.Some? && Latest(s).close < s.valuation.value / 2.0
    ensures s.valuation.None? ==> !r
    ensures r && s.valuation.value >= 0.0 ==> !IsValueAboveValuation(s)
  {
    s.valuation.Some? && Latest(s).close < s.valuation.value / 2.0
  }

  /** The two valuation checks can hold together only for a negative valuation. */
  lemma ValuationChecksExclusive(s: Symbol)
    requires s.valuation.Some? ==> s.data.Some? && |s.data.value| >= 1
    requires IsValueAboveValuation(s) && IsValueBelowValuation50(s)
    ensures s.valuation.Some? && s.valuation.value < 0.0
  {
  }

  // ---------------------------------------------------------------------------
  // The attribute write/read pair.

  /** Tag of the element toXMLElement creates; the reading side never looks at it. */
  const SymbolTag: string := "Symbol"

  /** toXMLElement with putAttributes: name and displayName always, the valuation
      only when there is one, rendered by `show` (String.valueOf). */
  function ToElement(s: Symbol, show: real -> string): (e: Element)
    ensures GetAttribute(e, "name") == Some(s.name)
    ensures GetAttribute(e, "displayName") == Some(s.displayName)
    ensures GetAttribute(e, "ruleNo1Valuation").Some? <==> s.valuation.Some?
    ensures s.valuation.Some? ==> GetAttribute(e, "ruleNo1Valuation") == Some(show(s.valuation.value))
    ensures e.children == []
  {
    var e := AddAttribute(AddAttribute(NewElement(SymbolTag), "name", s.name), "displayName", s.displayName);
    if s.valuation.Some? then AddAttribute(e, "ruleNo1Valuation", show(s.valuation.value)) else e
  }

  /** new Symbol(XMLElement): absent name and displayName read as "", the valuation
      is parsed by `valueOf` (Float.valueOf) only when the attribute is present, and
      a value it refuses is the NumberFormatException, here None. Stock data starts
      null and the counter at 3. */
  function FromElement(e: Element, valueOf: string -> Option<real>): (r: Option<Symbol>)
    ensures r.None? <==> GetAttribute(e, "ruleNo1Valuation").Some? && valueOf(e.attributes["ruleNo1Valuation"]).None?
    ensures r.Some? ==> r.value.data.None? && r.value.retries == InitialRetries
    ensures r.Some? ==> r.value.name == GetAttributeOr(e, "name", "")
    ensures r.Some? ==> r.value.displayName == GetAttributeOr(e, "displayName", "")
    ensures r.Some? ==> (r.value.valuation.Some? <==> GetAttribute(e, "ruleNo1Valuation").Some?)
    ensures r.Some? && r.value.valuation.Some? ==> Some(r.value.valuation.value) == valueOf(e.attributes["ruleNo1Valuation"])
  {
    var name := GetAttributeOr(e, "name", "");
    var displayName := GetAttributeOr(e, "displayName", "");
    if GetAttribute(e, "ruleNo1Valuation").Some? then
      match valueOf(GetAttributeOr(e, "ruleNo1Valuation", ""))
      case None => None
      case Some(v) => Some(Symbol(name, displayName, Some(v), None, InitialRetries))
    else
      Some(Symbol(name, displayName, None, None, InitialRetries))
  }

  /** Reading back what putAttributes wrote restores name, displayName and the
      valuation, drops the stock data and resets the counter, provided the
      valuation's text parses back to it. */
  lemma SymbolRoundTrip(s: Symbol, show: real -> string, valueOf: string -> Option<real>)
    requires s.valuation.Some? ==> valueOf(show(s.valuation.value)) == Some(s.valuation.value)
    ensures FromElement(ToElement(s, show), valueOf) == Some(s.(data := None, retries := InitialRetries))
    ensures !HasStockData(FromElement(ToElement(s, show), valueOf).value)
    ensures HasRuleNo1Valuation(FromElement(ToElement(s, show), valueOf).value) == HasRuleNo1Valuation(s)
    ensures HasDisplayName(FromElement(ToElement(s, show), valueOf).value) == HasDisplayName(s)
  {
    var e := ToElement(s, show);
    assert GetAttributeOr(e, "name", "") == s.name;
    assert GetAttributeOr(e, "displayName", "") == s.displayName;
  }
}

=== FILE: text.dfy ===
/** Character-level helpers for the Java string operations the core uses:
    decimal rendering of ints ("%d", string concatenation with an int),
    Integer.parseInt, String.contains, String.replace of one character,
    String.split on a literal separator, and ASCII lower-casing. */
module Text {
  import opened Util

  const Int32Min: int := -0x8000_0000
  const Int32Max: int := 0x7fff_ffff

  predicate IsDigit(c: char) { '0' <= c <= '9' }

  predicate AllDigits(s: string) { forall i :: 0 <= i < |s| ==> IsDigit(s[i]) }

  function DigitChar(d: int): (c: char)
    requires 0 <= d < 10
    ensures IsDigit(c)
  {
    ('0' as int + d) as char
  }

  function DigitValue(c: char): (d: nat)
    requires IsDigit(c)
    ensures d < 10
  {
    c as int - '0' as int
  }

  /** Decimal digits of n, most significant first, without leading zeros. */
  function NatToString(n: nat): (r: string)
    ensures 1 <= |r|
    ensures AllDigits(r)
    ensures r[0] == '0' ==> n == 0
    decreases n
  {
    if n < 10 then [DigitChar(n)] else NatToString(n / 10) + [DigitChar(n % 10)]
  }

  /** Java's rendering of an int in "..." + i. */
  function IntToString(n: int): string
  {
    if n < 0 then "-" + NatToString(-n) else NatToString(n)
  }

  /** A rendered int is non-empty and made of digits after at most a leading '-'. */
  lemma IntToStringChars(n: int)
    ensures 0 < |IntToString(n)|
    ensures forall i :: 0 <= i < |IntToString(n)| ==> IntToString(n)[i] == '-' || IsDigit(IntToString(n)[i])
  {
    if n < 0 {
      var s := NatToString(-n);
      assert IntToString(n) == "-" + s;
      assert forall i :: 1 <= i < |IntToString(n)| ==> IntToString(n)[i] == s[i - 1];
    }
  }

  /** Value of a run of decimal digits (leading zeros allowed). */
  function ParseDigits(s: string): nat
    requires AllDigits(s)
    decreases |s|
  {
    if |s| == 0 then 0 else ParseDigits(s[..|s| - 1]) * 10 + DigitValue(s[|s| - 1])
  }

  /** Reading back a rendered natural number gives the number. */
  lemma {:induction false} ParseNatToString(n: nat)
    ensures ParseDigits(NatToString(n)) == n
    decreases n
  {
    if n >= 10 {
      var p := NatToString(n / 10);
      var r := NatToString(n);
      assert r == p + [DigitChar(n % 10)];
      assert r[..|r| - 1] == p;
      ParseNatToString(n / 10);
    }
  }

  /** A leading '0' does not change the value of a digit run. */
  lemma {:induction false} ParseDigitsLeadingZero(s: string)
    requires AllDigits(s)
    ensures AllDigits(['0'] + s)
    ensures ParseDigits(['0'] + s) == ParseDigits(s)
    decreases |s|
  {
    var t := ['0'] + s;
    if |s| > 0 {
      assert t[..|t| - 1] == ['0'] + s[..|s| - 1];
      ParseDigitsLeadingZero(s[..|s| - 1]);
    }
  }

  function Zeros(k: nat): (r: string)
    ensures |r| == k
    ensures forall i :: 0 <= i < k ==> r[i] == '0'
    decreases k
  {
    if k == 0 then "" else "0" + Zeros(k - 1)
  }

  /** Any number of leading zeros leaves the value unchanged. */
  lemma {:induction false} ParseDigitsZeros(k: nat, s: string)
    requires AllDigits(s)
    ensures AllDigits(Zeros(k) + s)
    ensures ParseDigits(Zeros(k) + s) == ParseDigits(s)
    decreases k
  {
    if k > 0 {
      ParseDigitsZeros(k - 1, s);
      assert Zeros(k) + s == ['0'] + (Zeros(k - 1) + s);
      ParseDigitsLeadingZero(Zeros(k - 1) + s);
    } else {
      assert Zeros(k) + s == s;
    }
  }

  function Pow10(k: nat): (p: nat)
    ensures p >= 1
  {
    if k == 0 then 1 else 10 * Pow10(k - 1)
  }

  /** A number below 10^k needs at most k digits. */
  lemma {:induction false} NatToStringLength(n: nat, k: nat)
    requires 1 <= k && n < Pow10(k)
    ensures |NatToString(n)| <= k
    decreases k
  {
    if n >= 10 {
      assert k >= 2;
      assert n / 10 < Pow10(k - 1);
      NatToStringLength(n / 10, k - 1);
    }
  }

  /** "%0<width>d" for a non-negative value: left-padded with '0' to width. */
  function PadNat(n: nat, width: nat): (r: string)
    ensures |r| == if |NatToString(n)| < width then width else |NatToString(n)|
    ensures AllDigits(r)
    ensures ParseDigits(r) == n
  {
    var digits := NatToString(n);
    ParseNatToString(n);
    if |digits| < width then
      ParseDigitsZeros(width - |digits|, digits);
      Zeros(width - |digits|) + digits
    else
      digits
  }

  /** Integer.parseInt over ASCII digits: an optional '+' or '-', at least one
      digit and nothing else, and a value inside the 32-bit range; None stands for
      NumberFormatException. The Java also accepts other Unicode decimal digits
      (Character.digit); those are not modelled. */
  function ParseInt(s: string): (r: Option<int>)
    ensures r.Some? ==> Int32Min <= r.value <= Int32Max
    ensures |s| == 0 ==> r == None
    ensures AllDigits(s) && 0 < |s| && ParseDigits(s) <= Int32Max ==> r == Some(ParseDigits(s))
  {
    if |s| == 0 then None
    else
      var signed := s[0] == '-' || s[0] == '+';
      var body := if signed then s[1..] else s;
      if |body| == 0 || !AllDigits(body) then None
      else
        var m: int := ParseDigits(body);
        var v: int := if s[0] == '-' then -m else m;
        if Int32Min <= v <= Int32Max then Some(v) else None
  }

  /** Every 32-bit int survives rendering and Integer.parseInt. */
  lemma ParseIntToString(n: int)
    requires Int32Min <= n <= Int32Max
    ensures ParseInt(IntToString(n)) == Some(n)
  {
    var s := IntToString(n);
    if n < 0 {
      var digits := NatToString(-n);
      assert s == "-" + digits && s[0] == '-';
      assert s[1..] == digits;
      ParseNatToString(-n);
    } else {
      var digits := NatToString(n);
      assert s == digits && s[0] != '-' && s[0] != '+';
      ParseNatToString(n);
    }
  }

  /** sub occurs in s starting at position i. */
  predicate OccursAt(s: string, sub: string, i: int)
  {
    0 <= i && i + |sub| <= |s| && s[i..i + |sub|] == sub
  }

  /** String.contains. */
  predicate Contains(s: string, sub: string)
  {
    exists i :: 0 <= i <= |s| && OccursAt(s, sub, i)
  }

  /** A string without 'c' cannot contain "count". */
  lemma NoCountWithoutC(s: string)
    requires 'c' !in s
    ensures !Contains(s, "count")
  {
    forall i | 0 <= i <= |s|
      ensures !OccursAt(s, "count", i)
    {
      if i + 5 <= |s| {
        assert s[i..i + 5][0] == s[i];
      }
    }
  }

  /** A string ending in "count" contains it. */
  lemma EndsWithCount(p: string)
    ensures Contains(p + "count", "count")
  {
    var s := p + "count";
    assert s[|p|..|p| + 5] == "count";
    assert OccursAt(s, "count", |p|);
  }

  /** ASCII lower-casing of one character. */
  function LowerChar(c: char): char
  {
    if 'A' <= c <= 'Z' then (c as int + 32) as char else c
  }

  /** String.toLowerCase restricted to ASCII letters. */
  function Lower(s: string): (r: string)
    ensures |r| == |s|
    ensures forall i :: 0 <= i < |s| ==> r[i] == LowerChar(s[i])
  {
    seq(|s|, i requires 0 <= i < |s| => LowerChar(s[i]))
  }

  /** String.replace(c, rep) for a one-character target: every c becomes rep. */
  function ReplaceChar(s: string, c: char, rep: string): (r: string)
    ensures c !in rep ==> c !in r
    ensures forall x :: x !in s && x !in rep ==> x !in r
    ensures c !in s ==> r == s
    decreases |s|
  {
    if |s| == 0 then ""
    else (if s[0] == c then rep else [s[0]]) + ReplaceChar(s[1..], c, rep)
  }

  /** ReplaceChar works piecewise on a concatenation. */
  lemma {:induction false} ReplaceCharAppend(a: string, b: string, c: char, rep: string)
    ensures ReplaceChar(a + b, c, rep) == ReplaceChar(a, c, rep) + ReplaceChar(b, c, rep)
    decreases |a|
  {
    if |a| > 0 {
      assert (a + b)[1..] == a[1..] + b;
      ReplaceCharAppend(a[1..], b, c, rep);
    } else {
      assert a + b == b;
    }
  }

  /** Position of the first occurrence of sep at or after from, or -1. */
  function FirstIndexFrom(s: string, sep: string, from: nat): (i: int)
    requires 0 < |sep|
    ensures i == -1 || (from <= i && OccursAt(s, sep, i))
    ensures i >= 0 ==> forall j :: from <= j < i ==> !OccursAt(s, sep, j)
    ensures i == -1 ==> forall j :: from <= j ==> !OccursAt(s, sep, j)
    decreases |s| - from
  {
    if from + |sep| > |s| then -1
    else if s[from..from + |sep|] == sep then from
    else FirstIndexFrom(s, sep, from + 1)
  }

  /** All pieces between the non-overlapping occurrences of sep, scanning left to right. */
  function SplitAll(s: string, sep: string): (parts: seq<string>)
    requires 0 < |sep|
    ensures 1 <= |parts|
    decreases |s|
  {
    var i := FirstIndexFrom(s, sep, 0);
    if i < 0 then [s] else [s[..i]] + SplitAll(s[i + |sep|..], sep)
  }

  /** Removes the empty strings at the end, as String.split with limit 0 does. */
  function DropTrailingEmpty(parts: seq<string>): (r: seq<string>)
    ensures |r| <= |parts| && r == parts[..|r|]
    ensures |r| > 0 ==> r[|r| - 1] != ""
    decreases |parts|
  {
    if |parts| == 0 then []
    else if parts[|parts| - 1] == "" then DropTrailingEmpty(parts[..|parts| - 1])
    else parts
  }

  /** String.split(sep) for a separator without regular-expression metacharacters:
      an input with no match comes back whole; otherwise the pieces with the
      trailing empty ones removed. */
  function JavaSplit(s: string, sep: string): seq<string>
    requires 0 < |sep|
  {
    if FirstIndexFrom(s, sep, 0) < 0 then [s] else DropTrailingEmpty(SplitAll(s, sep))
  }

  /** A key and a non-empty value joined by a separator that starts with a character
      neither contains split back into exactly that key and that value. */
  lemma SplitJoined(k: string, v: string, sep: string)
    requires 0 < |sep| && sep[0] !in k && sep[0] !in v && 0 < |v|
    ensures JavaSplit(k + sep + v, sep) == [k, v]
  {
    var s := k + sep + v;
    assert s[|k|..|k| + |sep|] == sep;
    assert OccursAt(s, sep, |k|);
    forall j | 0 <= j < |k|
      ensures !OccursAt(s, sep, j)
    {
      if j + |sep| <= |s| {
        assert s[j..j + |sep|][0] == k[j];
      }
    }
    assert FirstIndexFrom(s, sep, 0) == |k|;
    assert s[..|k|] == k;
    assert s[|k| + |sep|..] == v;
    forall j | 0 <= j
      ensures !OccursAt(v, sep, j)
    {
      if j + |sep| <= |v| {
        assert v[j..j + |sep|][0] == v[j];
      }
    }
    assert FirstIndexFrom(v, sep, 0) == -1;
    assert SplitAll(s, sep) == [k, v];
  }
}

=== FILE: util.dfy ===
/** Small shared vocabulary: Java's nullable references become Option, plus the
    few integer and sequence helpers every other module uses. */
module Util {

  /** A Java reference that may be null. */
  datatype Option<+T> = None | Some(value: T)

  function Min(a: int, b: int): int { if a <= b then a else b }

  function Max0(a: int): nat { if a <= 0 then 0 else a }

  function MaxReal(a: real, b: real): real { if a >= b then a else b }

  function MinReal(a: real, b: real): real { if a <= b then a else b }

  /** Collections.reverse: the element at i moves to |s|-1-i. */
  function Reverse<T>(s: seq<T>): (r: seq<T>)
    ensures |r| == |s|
    ensures forall i :: 0 <= i < |s| ==> r[i] == s[|s| - 1 - i]
    decreases |s|
  {
    if |s| == 0 then [] else [s[|s| - 1]] + Reverse(s[..|s| - 1])
  }

  /** Reversing twice gives the original sequence back. */
  lemma ReverseReverse<T>(s: seq<T>)
    ensures Reverse(Reverse(s)) == s
  {
  }

  /** Reverse turns an append into a prepend. */
  lemma ReverseAppend<T>(s: seq<T>, x: T)
    ensures Reverse(s + [x]) == [x] + Reverse(s)
  {
    assert (s + [x])[..|s|] == s;
  }

  /** Reverse turns a prepend into an append. */
  lemma ReversePrepend<T>(x: T, s: seq<T>)
    ensures Reverse([x] + s) == Reverse(s) + [x]
  {
    assert Reverse([x] + s) == Reverse(s) + [x];
  }
}

=== FILE: xml.dfy ===
/** The XML element the persistence format is built from: a tag, an attribute
    map and an ordered list of children. Only the operations Symbol and Group
    use are modelled. */
module Xml {
  import opened Util

  datatype Element = Element(tag: string, attributes: map<string, string>, children: seq<Element>)

  function NewElement(tag: string): Element
  {
    Element(tag, map[], [])
  }

  /** getAttribute(name): the value, or null when the attribute is absent. */
  function GetAttribute(e: Element, name: string): (r: Option<string>)
    ensures r.Some? <==> name in e.attributes
    ensures r.Some? ==> r.value == e.attributes[name]
  {
    if name in e.attributes then Some(e.attributes[name]) else None
  }

  /** getAttribute(name, default). */
  function GetAttributeOr(e: Element, name: string, default: string): string
  {
    match GetAttribute(e, name)
    case Some(v) => v
    case None => default
  }

  /** addAttribute: a later value for the same name replaces the earlier one. */
  function AddAttribute(e: Element, name: string, value: string): (r: Element)
    ensures GetAttribute(r, name) == Some(value)
    ensures forall other :: other != name ==> GetAttribute(r, other) == GetAttribute(e, other)
    ensures r.tag == e.tag && r.children == e.children
  {
    e.(attributes := e.attributes[name := value])
  }

  /** addChild: appends after the existing children. */
  function AddChild(e: Element, child: Element): (r: Element)
    ensures r.children == e.children + [child]
    ensures r.tag == e.tag && r.attributes == e.attributes
  {
    e.(children := e.children + [child])
  }

  /** getElement(tag): the first child with that tag, or null. */
  function GetElement(e: Element, tag: string): (r: Option<Element>)
    ensures r.Some? <==> exists i :: 0 <= i < |e.children| && e.children[i].tag == tag
    ensures r.Some? ==> r.value in e.children && r.value.tag == tag
    ensures r.Some? ==> exists i :: FirstTagAt(e.children, tag, i) && e.children[i] == r.value
  {
    FirstWithTag(e.children, tag)
  }

  /** Position i holds the first child with the tag. */
  predicate FirstTagAt(children: seq<Element>, tag: string, i: int)
  {
    0 <= i < |children| && children[i].tag == tag && forall j :: 0 <= j < i ==> children[j].tag != tag
  }

  function FirstWithTag(children: seq<Element>, tag: string): (r: Option<Element>)
    ensures r.Some? <==> exists i :: 0 <= i < |children| && children[i].tag == tag
    ensures r.Some? ==> r.value in children && r.value.tag == tag
    ensures r.Some? ==> exists i :: FirstTagAt(children, tag, i) && children[i] == r.value
    decreases |children|
  {
    if |children| == 0 then None
    else if children[0].tag == tag then
      assert FirstTagAt(children, tag, 0);
      Some(children[0])
    else
      var r := FirstWithTag(children[1..], tag);
      assert forall i :: 0 <= i < |children| - 1 ==> children[1..][i] == children[i + 1];
      assert forall i :: FirstTagAt(children[1..], tag, i) ==> FirstTagAt(children, tag, i + 1);
      r
  }
}
